=== FILE: README.md ===
# RMSE results and dashboard naming — a Dafny model

This project models the pure core of two reporting scripts of a visual-inertial
odometry experiment pipeline:

- **`generate_rmse_table.py`**:
  - reads `results.txt` logs of repeated experiment runs, split into
    "Experiment Batch Start:" batches;
  - pulls every `rmse <number>` report out of them and summarises each run
    directory as a record (best, last, mean, last-batch mean and best);
  - names each run directory by a sequence code (`P2001`) and a variant
    (`daac_depth_w100`);
  - pivots all records into a sequence × variant table of one metric, with
    outliers masked;
  - applies the command line's rename, select and exclude options, and marks
    each row's best and worst cells for the HTML export.
- **`generate_dashboard.py`**:
  - turns a dataset name (`P2001_gt_depth_sdi`) into a sequence code and
    variant;
  - resolves it to an accuracy score through an alias list of column names in
    the RMSE table, with two special cases;
  - describes and labels it;
  - drops the possibly corrupt last row of a loaded CSV;
  - colours a percentage change on the comparison page.

Modules:

- `Options`: `Option` and `Result`.
- `Filters`: order-preserving filters (`[x for x in xs if keep(x)]`),
  described by the positions they keep, and the first position passing a
  test.
- `Text`:
  - the regular-expression classes `\d` and `\s`;
  - what `.*` matches;
  - `str.strip()`;
  - `re.split` by a literal marker.
- `StringOrder`: Python's string order and `sorted` of a set of strings.
- `Dashboard`: `get_rmse`, `get_description`, `get_short_variant`, the row drop
  of `load_and_clean_data`, and the page's `diffClass`.
- `ResultsLog`:
  - `parse_directory_name`;
  - the text-to-record part of `parse_results_file`: batches, the
    `rmse\s+([\d.]+)` scan, `float`, and the record.
- `ResultsTable`:
  - the `scan_results` fold;
  - `create_table`;
  - the rename/filter block of `main`;
  - the row classification of `export_tables`.

Modelling choices:

- **Global accuracy table.** The dashboard's global `RMSE_DATA` is an explicit
  `Option<AccuracyTable>` argument. `None` means no table was loaded.
- **Float parsing.** `float(token)` is the exact decimal value of the token. A
  token Python's `float` rejects, such as `1.2.3` or `.`, is the
  `MalformedNumber` error. In the script that exception aborts the whole scan,
  and `ScanLogs` models exactly that.
- **Regular-expression details**, stated in the contracts:
  - `re.match` is anchored only at the start;
  - `.` stops at a newline;
  - `_?(.+)` backtracks, so `P2001_` has variant `_`;
  - with `IGNORECASE`, `rmse` also matches the long s (U+017F).
- **Means and sums.** A record's relations state that the mean added up
  count times (`Repeat`) gives the sum. `RepeatIsProduct` shows this is the
  mean times the count, and `MeanTimesLength` states that product directly.
- **Duplicate column labels.** Columns are a sequence, not a map. After a
  rename two columns can share a label. Selecting or dropping a label then acts
  on all of them, as pandas does.

Where the behaviour differs from what the scripts' documentation suggests, the
model follows the code:

- **`create_table` with no sequences.** It builds an empty frame and then
  indexes it by a `Sequence` column it does not have, which raises. The model
  returns `Failure(NoSequences)`.
- **`all_best`.** It is listed as a metric in the docstring of `create_table`,
  but it is not a key of the record. Every cell of it is missing.
- **Partial `_?` in the two parsers.** `get_rmse` and `get_description` use
  `_?(.*)`, so `P2001_` is the `base` variant. `parse_directory_name` uses
  `_?(.+)`, so `P2001_` has variant `_` and `P2001` does not parse
  (`ParsersAgree`, `LoneUnderscoreIsVariant`).
- **`diffClass` with a zero base.** The page divides by `Math.abs(a)` without
  a guard. A zero base yields an infinity or NaN, which colours any change from
  zero, and the model keeps that (`Dashboard.DiffClass`).

## Model

| member | source | states |
|---|---|---|
| Text.Strip | generate_rmse_table.py:32 | The result is a contiguous part of the input with only whitespace around it, and it neither starts nor ends with whitespace; it is empty exactly when the input is all whitespace. |
| Text.Split | generate_rmse_table.py:31 | Joining the pieces back with the marker gives the input, there is at least one piece, and no piece contains the marker. |
| Text.SplitCutsLeftmost | generate_rmse_table.py:31 | Each cut is at the leftmost occurrence of the marker: in the text from any piece but the last onward, the marker first occurs right after that piece. This holds even for a marker that overlaps itself. |
| StringOrder.SortedList | generate_rmse_table.py:119-122 | `sorted` of a set of strings: strictly increasing in Python's string order, with exactly the elements of the set, each once. |
| StringOrder.LeastExists | generate_rmse_table.py:119-122 | Every finite non-empty set of strings has a least element in Python's order. |
| StringOrder.SortedFirstIsLeast | generate_rmse_table.py:119-122 | The first string of the sorted list is the set's least element. |
| StringOrder.BelowTransitive | generate_rmse_table.py:119-122 | Python's string comparison is transitive. |
| StringOrder.BelowTotal | generate_rmse_table.py:119-122 | Any two different strings are ordered one way or the other. |
| Dashboard.SplitName | generate_dashboard.py:38-43 | `(P\d{4})_?(.*)` matches exactly when the name starts with a sequence code; the captured suffix follows the code and at most one underscore and runs to the end of the first line. |
| Dashboard.SplitCodeAndTail | generate_dashboard.py:38-43 | A code followed by a one-line tail splits into the code and the tail less at most one leading underscore. |
| Dashboard.BareCodeIsBase | generate_dashboard.py:43 | A bare code, and a code followed by a lone underscore, are the `base` variant. |
| Dashboard.FifthDigitIsVariant | generate_dashboard.py:38 | The match is not anchored at the end: in `P20011` the fifth digit is the variant. |
| Dashboard.FirstValue | generate_dashboard.py:72-79 | The value of the first candidate column that exists and has a non-missing cell, and no value exactly when no candidate has one. |
| Dashboard.GetRmse | generate_dashboard.py:27-79 | No score without a table or for an unparsable name; the fixed score for `P2001_outlier_opt`; no score for a sequence missing from the index; otherwise the first existing non-missing candidate column for the variant, where `gt_depth_sdi` reads as `base` and unknown variants try their own name. |
| Dashboard.FixedScoreIgnoresTable | generate_dashboard.py:45-47 | `P2001_outlier_opt` scores 0.4386 even when the table has no row for `P2001`, and nothing without a table. |
| Dashboard.SharedBaselineScore | generate_dashboard.py:49-51 | For every sequence, `gt_depth_sdi` (with or without the underscore) scores exactly what the bare sequence (its baseline) scores. |
| Dashboard.BareCodeReadsBaseline | generate_dashboard.py:55-56 | A bare sequence code reads the `baseline` column first. |
| Dashboard.Description | generate_dashboard.py:81-106 | An unparsable name is its own description; otherwise the description is the code, a space, and either the variant's fixed text or the variant itself. |
| Dashboard.ShortVariant | generate_dashboard.py:108-114 | The raw suffix, or `baseline` for an unparsable name or an empty suffix; never empty. |
| Dashboard.LabelsAgree | generate_dashboard.py:81-114 | The short label is the description's variant except that an empty suffix is `baseline` rather than `base`, and an undescribed variant's description is its code followed by its short label. |
| Dashboard.DropLastRow | generate_dashboard.py:119 | A prefix of the rows, one shorter; an empty table stays empty. |
| Dashboard.DiffClass | generate_dashboard.py:536-543 | For a non-zero base, better exactly when the change exceeds 1% of the base in the good direction and worse exactly when it does in the bad direction; for a zero base, neutral exactly when the new value is also zero; otherwise a rise is worse and a fall is better when lower is better, and the reverse when higher is better. |
| Dashboard.DiffClassDirection | generate_dashboard.py:536-543 | Flipping which direction is better swaps better and worse and keeps neutral. |
| ResultsLog.ParseDirectoryName | generate_rmse_table.py:61-75 | No parse exactly when the name does not start with a sequence code or nothing follows it on its line; otherwise the code and a non-empty one-line variant that starts after the code and an optional underscore and runs to the end of the line. |
| ResultsLog.ParseCodeAndTail | generate_rmse_table.py:70-74 | A code followed by a one-line tail: no variant when the tail is empty, the tail less its underscore when more follows it, the tail itself otherwise. |
| ResultsLog.DocumentedDirectoryNames | generate_rmse_table.py:64-67 | The three documented examples parse as documented, for every sequence code. |
| ResultsLog.BareCodeHasNoVariant | generate_rmse_table.py:70 | A directory named only by its code does not parse. |
| ResultsLog.LoneUnderscoreIsVariant | generate_rmse_table.py:70 | A code followed by a lone underscore has `_` as its variant. |
| ResultsLog.ParsersAgree | generate_rmse_table.py:70 | On one-line names, a directory name that parses also parses as a dashboard name with the same code, and its variant is the dashboard's suffix, except that a lone `_` is the variant here and an empty suffix there. |
| ResultsLog.MatchAt | generate_rmse_table.py:39 | A match of `rmse\s+([\d.]+)` at a position is the keyword in any case, at least one character, every one of them whitespace, and a captured run of digits and dots that no further digit or dot follows. |
| ResultsLog.MatchAtShape | generate_rmse_table.py:39 | The pattern matches at a position exactly when some keyword, whitespace and number shape starts there, and the match found is that shape. |
| ResultsLog.NextMatchIsLeftmost | generate_rmse_table.py:39 | The next match found from a position is a match and no earlier position from there matches; when none is found, no position from there on matches. |
| ResultsLog.FindLeftmost | generate_rmse_table.py:39 | `findall` reports the number of the leftmost match first and resumes after that match's end, so reported matches never overlap and none is skipped. |
| ResultsLog.FindNothing | generate_rmse_table.py:39 | `findall` reports nothing exactly when no position from the start on matches. |
| ResultsLog.NoMatchNoShape | generate_rmse_table.py:39 | No match is found from a position on exactly when no match shape starts at or after it. |
| ResultsLog.ReportedTokens | generate_rmse_table.py:39 | The numbers a batch reports are runs of digits and dots; there are none exactly when no match shape starts anywhere in the batch, and otherwise the first is the number of the leftmost match. |
| ResultsLog.SingleReport | generate_rmse_table.py:39 | A batch consisting of one report yields exactly that report's number token. |
| ResultsLog.DecimalValue | generate_rmse_table.py:40 | A token of digits and dots converts exactly when it has at most one dot and at least one digit, and the value is non-negative. |
| ResultsLog.NumeralRoundTrip | generate_rmse_table.py:40 | Every natural number written in decimal converts back to itself. |
| ResultsLog.Batches | generate_rmse_table.py:31-32 | No batch is empty or has whitespace at either end. |
| ResultsLog.StrippedInOrder | generate_rmse_table.py:32 | `[b.strip() for b in parts if b.strip()]` holds, in the order of the pieces, exactly the pieces that are not all whitespace, each stripped. |
| ResultsLog.StrippedTrimmed | generate_rmse_table.py:32 | No kept piece is empty or has whitespace at either end. |
| ResultsLog.BatchesInOrder | generate_rmse_table.py:31-32 | The batches are, in the order of the text, exactly the pieces between markers that are not all whitespace, each stripped: batch `k` is piece `idx[k]` stripped, with `idx` increasing and listing every non-blank piece and no other. |
| ResultsLog.LastBatchIsLastPiece | generate_rmse_table.py:31-45 | The last batch is the last non-blank piece, stripped, and every later piece is blank. |
| ResultsLog.NoBatches | generate_rmse_table.py:31-32 | A log has no batches exactly when every piece between markers is blank. |
| ResultsLog.LeadingTextIsFirstBatch | generate_rmse_table.py:31-32 | Non-blank text before the first marker is the first batch. |
| ResultsLog.UnmarkedLogIsOneBatch | generate_rmse_table.py:31-32 | A log without a marker is a single batch (its stripped text), or none when blank. |
| ResultsLog.LastBatchEndsLog | generate_rmse_table.py:37-45 | The numbers of the last batch are those reported in the last non-blank piece, and the numbers of the whole log end with them. |
| ResultsLog.AllLogTokens | generate_rmse_table.py:37-41 | Every number the log reports, batch by batch, is a run of digits and dots. |
| ResultsLog.TokenValues | generate_rmse_table.py:40 | Converting all tokens succeeds exactly when each token is a valid decimal, and then gives each token's value in order. |
| ResultsLog.TokenValuesAppend | generate_rmse_table.py:40 | Converting a concatenation of tokens succeeds only when both parts convert, and gives the first part's values followed by the second's. |
| ResultsLog.MeanBounds | generate_rmse_table.py:55 | The mean lies between the minimum and the maximum. |
| ResultsLog.MeanTimesLength | generate_rmse_table.py:55 | The mean times the count is the sum, and so is the mean added up count times. |
| ResultsLog.MakeRecord | generate_rmse_table.py:50-59 | The record built from all values and a last-batch suffix of them is consistent: the count is the number of values, the best is the minimum, the last is the final value, the mean added up count times is the sum and lies between the best and the largest value; the last-batch best and mean exist exactly when the last batch is non-empty, the last-batch mean added up over the batch is its sum, and best ≤ last-batch best ≤ last-batch mean ≤ the batch's largest value. |
| ResultsLog.OverallFacts | generate_rmse_table.py:51-58 | The minimum and mean of all values, with their count and final value, keep the overall relations of a record. |
| ResultsLog.LastBatchFacts | generate_rmse_table.py:52-57 | The minimum and mean of a suffix of the values, or none for an empty suffix, keep the last batch's relations of a record. |
| ResultsLog.LastBatchIsSuffix | generate_rmse_table.py:37-45 | The last batch's values are the final values of the whole log. |
| ResultsLog.ParseResultsText | generate_rmse_table.py:30-59 | Fails exactly when some reported token is not a valid number; no record exactly when nothing is reported; otherwise a consistent record whose values are all reported numbers in order and whose last batch holds those of the last batch. |
| ResultsTable.Fold | generate_rmse_table.py:84-98 | No sequence of the scan result has an empty variant map. |
| ResultsTable.FoldHasKey | generate_rmse_table.py:88-98 | Every directory whose name parses leaves its sequence and variant in the result. |
| ResultsTable.FoldKeyFrom | generate_rmse_table.py:88-98 | Every sequence and variant in the result comes from some directory name. |
| ResultsTable.FoldKeepsLast | generate_rmse_table.py:94-98 | The record kept for a sequence and variant is that of the last directory naming them. |
| ResultsTable.Scan | generate_rmse_table.py:84-98 | A sequence appears with a variant exactly when some directory name parses to them, and holds the record of the last such directory. |
| ResultsTable.LaterDirectoryWins | generate_rmse_table.py:94-98 | `P2001_x` followed by `P2001x` leaves the second directory's record under `x`. |
| ResultsTable.ReadLog | generate_rmse_table.py:24-48 | No record exactly when the log file is missing or reports no number; a failure exactly when a reported number is malformed; otherwise a consistent record. |
| ResultsTable.ReadDir | generate_rmse_table.py:88-93 | A directory is read only when its name parses, and reading fails exactly when its log has a malformed number. |
| ResultsTable.ReadLogs | generate_rmse_table.py:84-96 | Only directories whose names parse are read; reading fails exactly when one of them has a malformed number, and otherwise gives each its record. |
| ResultsTable.ScanLogs | generate_rmse_table.py:77-100 | The scan aborts exactly when a read log has a malformed number; otherwise a sequence appears with a variant exactly when some directory is named for them, no sequence is empty, and each entry holds what the log of the last such directory gave. |
| ResultsTable.ScannedLogs | generate_rmse_table.py:84-98 | Folding the directories as read keys exactly the directory names that parse, each holding what the last such directory's log gave. |
| ResultsTable.CellValue | generate_rmse_table.py:127-136 | A cell has a value exactly when the run exists, has a record, the record has the metric, and the value does not exceed the threshold; the value is then the metric's. |
| ResultsTable.Pivot | generate_rmse_table.py:123-137 | One column per variant, in the given order, each with one cell per sequence that is the metric of that run or missing as `CellValue` says. |
| ResultsTable.CreateTable | generate_rmse_table.py:102-142 | Fails exactly when there are no sequences; otherwise rows are the sorted sequences, columns the sorted union of variants, every column has a cell per row, each cell is the metric of that run or missing as `CellValue` says. |
| ResultsTable.NoCellAboveThreshold | generate_rmse_table.py:129-134 | Outlier masking: no non-missing cell of a built table holds a value above the threshold. |
| ResultsTable.ParseRule | generate_rmse_table.py:326-327 | No rule exactly when there is no `=`; otherwise old name, `=`, and new name give back the text, and the old name has no `=`. |
| ResultsTable.RenamesKeys | generate_rmse_table.py:325-329 | A column is renamed exactly when it exists before renaming and some rule names it. |
| ResultsTable.RenamesKeepLast | generate_rmse_table.py:325-329 | A later rule for the same column overrides an earlier one. |
| ResultsTable.RenameMap | generate_rmse_table.py:323-329 | The rename map has exactly the existing columns some rule names, each mapped to the new name of its last rule. |
| ResultsTable.RenameColumns | generate_rmse_table.py:330-331 | Every column keeps its cells and position and takes its new name when it has one. |
| ResultsTable.WithLabel | generate_rmse_table.py:341 | Exactly the columns with the label. |
| ResultsTable.MetricPresence | generate_rmse_table.py:128-129 | For a consistent run record, the metric is missing exactly when it is `all_best`, or a last-batch metric of a run whose last batch is empty. A present metric is never below the best RMSE. |
| ResultsTable.WithLabelInOrder | generate_rmse_table.py:341 | The columns with the label come in the order of the table. |
| ResultsTable.SelectColumns | generate_rmse_table.py:341 | Exactly the columns whose label is requested. |
| ResultsTable.SelectColumnsGroups | generate_rmse_table.py:341 | The selection is the requested labels' column groups joined in the order the labels are requested. |
| ResultsTable.LabelGroupsInOrder | generate_rmse_table.py:341 | Each group keeps the order of the table's columns. |
| ResultsTable.DropLabel | generate_rmse_table.py:347-348 | Exactly the columns without the label; a label that is not a column changes nothing. |
| ResultsTable.DropLabelInOrder | generate_rmse_table.py:347-348 | The remaining columns keep their order. |
| ResultsTable.DropLabels | generate_rmse_table.py:345-348 | Exactly the columns whose label is not excluded. |
| ResultsTable.DropLabelsInOrder | generate_rmse_table.py:345-348 | Dropping the excluded labels one at a time is one order-preserving filter keeping the columns whose label is not excluded. |
| ResultsTable.Present | generate_rmse_table.py:336 | Exactly the requested variants that are columns. |
| ResultsTable.PresentInOrder | generate_rmse_table.py:336 | The requested variants that are columns keep the requested order. |
| ResultsTable.ApplyColumnOptions | generate_rmse_table.py:322-349 | Renaming comes first; with requested variants of which some exist, exactly the renamed columns with a requested label remain; with none existing, the renamed table is kept; without a request, exactly the renamed columns not excluded remain; rows are untouched. |
| ResultsTable.ApplyColumnOptionsShape | generate_rmse_table.py:322-349 | Filtering keeps every remaining column's cells in step with the rows. |
| ResultsTable.SelectedInOrder | generate_rmse_table.py:335-342 | With requested variants of which some exist and distinct labels after renaming, the table's columns are exactly the existing requested variants, in the requested order. |
| ResultsTable.ExcludedInOrder | generate_rmse_table.py:343-348 | Without requested variants, the table's columns are the renamed columns whose label is not excluded, in their order. |
| ResultsTable.SelectByNewName | generate_rmse_table.py:322-341 | Requesting a column by the name a rule gave it selects that column and only columns of that name. |
| ResultsTable.SelectInRequestedOrder | generate_rmse_table.py:336-341 | With distinct labels, selecting existing labels yields their columns in the requested order. |
| ResultsTable.DefaultColumnOptions | generate_rmse_table.py:305-310 | With the default options, `base_w0` appears as `baseline` with its cells, `sdi_w0` is gone, and every other column is kept. |
| ResultsTable.DefaultRenameMap | generate_rmse_table.py:309-310 | The default rename map renames `base_w0` to `baseline` when it is a column, and nothing else. |
| ResultsTable.DefaultTableCells | generate_rmse_table.py:296-300 | With the default `--metric` and `--outlier`, every shown cell is its run's best RMSE and is at most 100. |
| ResultsTable.ValidValues | generate_rmse_table.py:228 | Exactly the non-missing values of the row. |
| ResultsTable.ValidValuesInOrder | generate_rmse_table.py:228 | One value per non-missing cell, in the order of the row: value `k` is that of the `k`-th non-missing cell. |
| ResultsTable.ClassifyRow | generate_rmse_table.py:227-243 | A cell is missing exactly when it has no value; best exactly when its value is the row minimum; worst exactly when it is the row maximum, not the minimum, and the row has more than two values. |
| ResultsTable.RowHasBest | generate_rmse_table.py:227-243 | A row with a value has a best cell, and a row with at most two values has no worst cell. |
| ResultsTable.RowOf | generate_rmse_table.py:227 | The row holds each column's cell for that sequence. |
| ResultsTable.BestCellOfTable | generate_rmse_table.py:227-239 | In row `i` of a table, the cell of column `j` is marked best exactly when it has a value no larger than any other value in that row. |
| Filters.FilterKeepsOrder | generate_rmse_table.py:32 | A list comprehension with a condition keeps exactly the elements that pass, in their order. |
| Filters.FilterTwice | generate_rmse_table.py:345-348 | Filtering by one test and then another is filtering once by both. |

## Left out

- File and directory I/O:
  - reading `results.txt` and the CSV files;
  - globbing `P*` and the `sorted` order of full paths. `Scan` takes the
    directories in the order given.
  - Reading is not modelled. A missing log is `None` in `LogDir`.
- Printing, the emoji status lines, plotting, and HTML/CSV/LaTeX/Markdown
  writing. Of the HTML export only the per-row best/worst classification is
  modelled.
- `print_table`, the MEAN summary row, and the dashboard's summary statistics
  and figures: none is part of this model.
- `argparse` is not modelled. The defaults of `--rename` and `--exclude` are
  constants used by `DefaultColumnOptions`, and those of `--metric` and
  `--outlier` by `DefaultTableCells`. An absent `--variants` and an empty one
  are the same empty sequence, as in the script.
- ResultsLog.DecimalValue: the exact decimal value, not its rounding to a
  double. Comparisons with the outlier threshold and the min/max
  classification are therefore over exact values.
- ResultsLog.ParseResultsText: `\d` is restricted to ASCII digits, so
  non-ASCII Unicode digits are not recognised as part of a number token.
- ResultsLog.ParseDirectoryName: `\d` in `P\d{4}` is restricted to ASCII
  digits; Python's `re` also accepts other Unicode decimal digits there.
- Dashboard.SplitName: `\d` in `P\d{4}` is restricted to ASCII digits, as
  for `ParseDirectoryName`.
- ResultsTable.CreateTable: a variant named `Sequence` is not modelled. In
  the script its cell overwrites the row's `Sequence` entry, and `set_index`
  then indexes the rows by that column's values. The model keeps the
  sequences as the row index and such a variant as an ordinary column.
- ResultsTable.MetricValue: the record's list-valued entries (`all_rmse`,
  `last_batch_rmse`) and `num_runs` are not selectable metrics. The command
  line never offers them.
- Dashboard.GetRmse:
  - a duplicated sequence in the accuracy table's index is not modelled; the
    table maps each sequence and column to at most one value;
  - a NaN in the table is a missing cell.
- Dashboard.DiffClass: numbers are exact reals, so JavaScript's float rounding
  near the ±1% band is not modelled.
- Loading the accuracy table (`load_rmse_data`) and the global it sets are
  replaced by the explicit table argument.

=== FILE: dashboard.dfy ===
/** The pure core of the dashboard exporter: turning a dataset's
    file-derived name into a sequence code and variant, resolving it to an
    accuracy (RMSE) score against an explicitly passed accuracy table,
    describing it, dropping the trailing row of a loaded table, and the
    comparison page's rule for colouring a percentage change. */
module Dashboard {
  import opened Options
  import opened Text

  /** A sequence code: `P` followed by four digits (`P\d{4}`). */
  predicate IsSequenceCode(s: string)
  {
    |s| == 5 && s[0] == 'P' && forall k :: 1 <= k < 5 ==> IsAsciiDigit(s[k])
  }

  /** What `(P\d{4})_?(.*)` captures: the sequence code and the raw suffix
      (possibly empty). */
  datatype NameParts = NameParts(sequence: string, suffix: string)

  /** Where the suffix of a name starts: after one optional underscore. */
  function SuffixStart(name: string): nat
  {
    if |name| > 5 && name[5] == '_' then 6 else 5
  }

  /** `re.match(r'(P\d{4})_?(.*)', name)`: anchored at the start only, the
      underscore taken when present, the suffix running to the end of the
      first line. */
  function SplitName(name: string): (r: Option<NameParts>)
    ensures r.Some? <==> |name| >= 5 && IsSequenceCode(name[..5])
    ensures r.Some? ==> r.value.sequence == name[..5]
    ensures r.Some? ==>
              var start := SuffixStart(name);
              var suffix := r.value.suffix;
              && '\n' !in suffix
              && start + |suffix| <= |name|
              && name[start..start + |suffix|] == suffix
              && (start + |suffix| == |name| || name[start + |suffix|] == '\n')
  {
    if |name| >= 5 && IsSequenceCode(name[..5]) then
      var start := SuffixStart(name);
      var suffix := LineHead(name[start..]);
      assert name[start..][..|suffix|] == name[start..start + |suffix|];
      Some(NameParts(name[..5], suffix))
    else
      None
  }

  /** The variant of a parsed name: its suffix, or `base` when empty. */
  function Variant(p: NameParts): string
  {
    if p.suffix == [] then "base" else p.suffix
  }

  /** For a one-line name the suffix is the whole remainder after the
      code, less at most one leading underscore. */
  lemma SplitOneLineName(name: string)
    requires |name| >= 5 && IsSequenceCode(name[..5])
    requires '\n' !in name
    ensures SplitName(name) == Some(NameParts(name[..5], name[SuffixStart(name)..]))
  {
    var start := SuffixStart(name);
    assert forall c :: c in name[start..] ==> c in name;
    LineHeadWithoutNewline(name[start..]);
  }

  /** A sequence code contains no newline. */
  lemma SequenceCodeOneLine(s: string)
    requires IsSequenceCode(s)
    ensures '\n' !in s
  {
    assert forall k :: 0 <= k < |s| ==> s[k] != '\n';
  }

  /** A code followed by a one-line tail splits into the code and the
      tail less at most one leading underscore. */
  lemma SplitCodeAndTail(s: string, w: string)
    requires IsSequenceCode(s)
    requires '\n' !in w
    ensures SplitName(s + w) == Some(NameParts(s, if w != [] && w[0] == '_' then w[1..] else w))
  {
    var n := s + w;
    assert n[..5] == s;
    assert n[5..] == w;
    SequenceCodeOneLine(s);
    assert '\n' !in n by {
      forall k | 0 <= k < |n|
        ensures n[k] != '\n'
      {
        if k < 5 {
          assert n[k] == s[k] && s[k] in s;
        } else {
          assert n[k] == w[k - 5] && w[k - 5] in w;
        }
      }
    }
    SplitOneLineName(n);
  }

  /** A bare code, or a code followed only by an underscore, is the `base`
      variant. */
  lemma BareCodeIsBase(s: string)
    requires IsSequenceCode(s)
    ensures SplitName(s) == Some(NameParts(s, ""))
    ensures SplitName(s + "_") == Some(NameParts(s, ""))
    ensures Variant(SplitName(s + "_").value) == "base"
  {
    SplitCodeAndTail(s, "");
    assert s + "" == s;
    SplitCodeAndTail(s, "_");
  }

  /** The match is not anchored at the end: a fifth digit is the variant. */
  lemma FifthDigitIsVariant(s: string)
    requires IsSequenceCode(s)
    ensures SplitName(s + "2") == Some(NameParts(s, "2"))
  {
    SplitCodeAndTail(s, "2");
  }

  // ---------------------------------------------------------------------
  // Accuracy lookup
  // ---------------------------------------------------------------------

  /** The accuracy table read from the RMSE CSV: the sequence codes of its
      index, its column names, and its non-missing cells. A pair absent
      from `cells` is a missing (NaN) cell. */
  datatype AccuracyTable = AccuracyTable(
    index: set<string>,
    columns: set<string>,
    cells: map<(string, string), real>)

  /** The one dataset whose score is fixed rather than looked up. */
  const FixedScoreName: string := "P2001_outlier_opt"
  const FixedScore: real := 0.4386

  /** The variant that reuses the baseline's score. */
  const SharedBaselineVariant: string := "gt_depth_sdi"

  /** For each known variant spelling, the accuracy-table columns to try,
      in order. */
  const ColumnAliases: map<string, seq<string>> := map[
    "base" := ["baseline", "base_w0", "base"],
    "daac_depth_opt_w100" := ["daac_depth_w100", "daac_depth_opt_w100"],
    "daac_rgd_inv" := ["daac_rgd_inv_w0", "daac_rgd_inv"],
    "daac_rgd_metric" := ["daac_rgd_metric_w0", "daac_rgd_metric"],
    "gt_depth_opt_w100" := ["gt_depth_opt_w100"],
    "gt_depth_rgd_inverse" := ["gt_depth_rgd_inv_w0", "gt_depth_rgd_inverse", "gt_depth_rgd_inv"],
    "gt_depth_rgd_metric" := ["gt_depth_rgd_metric_w0", "gt_depth_rgd_metric"]
  ]

  /** The variant used for lookup, after the shared-baseline alias. */
  function LookupVariant(p: NameParts): string
  {
    var v := Variant(p);
    if v == SharedBaselineVariant then "base" else v
  }

  /** The columns to try for a variant; an unknown variant tries only a
      column of its own name. */
  function Candidates(variant: string): seq<string>
  {
    if variant in ColumnAliases then ColumnAliases[variant] else [variant]
  }

  /** Column `col` exists and its cell in row `sequence` is not missing. */
  predicate HasValue(t: AccuracyTable, sequence: string, col: string)
  {
    col in t.columns && (sequence, col) in t.cells
  }

  /** `cols[i]` is the first candidate with a value. */
  ghost predicate IsFirstHit(t: AccuracyTable, sequence: string, cols: seq<string>, i: int)
  {
    && 0 <= i < |cols|
    && HasValue(t, sequence, cols[i])
    && forall j :: 0 <= j < i ==> !HasValue(t, sequence, cols[j])
  }

  /** The loop over candidate columns: the value of the first column that
      exists and whose cell is not missing. */
  function FirstValue(t: AccuracyTable, sequence: string, cols: seq<string>): (r: Option<real>)
    ensures r.None? <==> forall i :: 0 <= i < |cols| ==> !HasValue(t, sequence, cols[i])
    ensures forall i :: IsFirstHit(t, sequence, cols, i) ==> r == Some(t.cells[(sequence, cols[i])])
  {
    if cols == [] then None
    else if HasValue(t, sequence, cols[0]) then Some(t.cells[(sequence, cols[0])])
    else
      var r := FirstValue(t, sequence, cols[1..]);
      assert forall i :: IsFirstHit(t, sequence, cols, i) ==> IsFirstHit(t, sequence, cols[1..], i - 1);
      r
  }

  /** `get_rmse(name)` with the accuracy table passed explicitly (`None`
      when no table was loaded). */
  function GetRmse(table: Option<AccuracyTable>, name: string): (r: Option<real>)
    ensures table.None? ==> r.None?
    ensures SplitName(name).None? ==> r.None?
    ensures table.Some? && name == FixedScoreName ==> r == Some(FixedScore)
    ensures table.Some? && name != FixedScoreName && SplitName(name).Some? ==>
              var t := table.value;
              var p := SplitName(name).value;
              var cols := Candidates(LookupVariant(p));
              && (p.sequence !in t.index ==> r.None?)
              && (p.sequence in t.index ==>
                    && (r.None? <==> forall i :: 0 <= i < |cols| ==> !HasValue(t, p.sequence, cols[i]))
                    && forall i :: IsFirstHit(t, p.sequence, cols, i) ==> r == Some(t.cells[(p.sequence, cols[i])]))
  {
    match table
    case None => None
    case Some(t) =>
      match SplitName(name)
      case None => None
      case Some(p) =>
        if name == FixedScoreName then Some(FixedScore)
        else
          var cols := Candidates(LookupVariant(p));
          if p.sequence !in t.index then None
          else FirstValue(t, p.sequence, cols)
  }

  /** The fixed score wins even when the table has no row for `P2001`, and
      no score is given for it without a table. */
  lemma FixedScoreIgnoresTable(t: AccuracyTable)
    ensures "P2001" !in t.index ==> GetRmse(Some(t), "P2001_outlier_opt") == Some(0.4386)
    ensures GetRmse(None, "P2001_outlier_opt").None?
  {
    assert IsSequenceCode("P2001_outlier_opt"[..5]);
  }

  /** The `gt_depth_sdi` variant of any sequence has exactly the score of
      that sequence's baseline, with or without the underscore. */
  lemma SharedBaselineScore(t: Option<AccuracyTable>, s: string)
    requires IsSequenceCode(s)
    ensures GetRmse(t, s + "_" + SharedBaselineVariant) == GetRmse(t, s)
    ensures GetRmse(t, s + SharedBaselineVariant) == GetRmse(t, s)
  {
    UnderscoredBaselineScore(t, s);
    PlainBaselineScore(t, s);
  }

  /** The underscored spelling of the shared-baseline variant. */
  lemma UnderscoredBaselineScore(t: Option<AccuracyTable>, s: string)
    requires IsSequenceCode(s)
    ensures GetRmse(t, s + "_" + SharedBaselineVariant) == GetRmse(t, s)
  {
    var v := SharedBaselineVariant;
    var u := "_" + v;
    assert '\n' !in v;
    assert u[1..] == v;
    assert s + u == s + "_" + v;
    ReadsBaseScore(t, s, u, v);
  }

  /** The spelling of the shared-baseline variant without an underscore. */
  lemma PlainBaselineScore(t: Option<AccuracyTable>, s: string)
    requires IsSequenceCode(s)
    ensures GetRmse(t, s + SharedBaselineVariant) == GetRmse(t, s)
  {
    var v := SharedBaselineVariant;
    assert '\n' !in v;
    assert (s + v)[5] != FixedScoreName[5];
    ReadsBaseScore(t, s, v, v);
  }

  /** A code followed by a one-line tail whose variant is the shared
      baseline scores what the bare code scores. */
  lemma ReadsBaseScore(t: Option<AccuracyTable>, s: string, w: string, v: string)
    requires IsSequenceCode(s) && '\n' !in v
    requires w == v || (w != [] && w[0] == '_' && w[1..] == v)
    requires v == SharedBaselineVariant
    requires s + w != FixedScoreName
    ensures GetRmse(t, s + w) == GetRmse(t, s)
  {
    assert '\n' !in w by {
      assert forall c :: c in w ==> c == '_' || c in v;
    }
    SplitCodeAndTail(s, w);
    BareCodeIsBase(s);
    assert |s| != |FixedScoreName|;
    SameLookupSameScore(t, s + w, s);
  }

  /** The score depends only on the sequence code and the lookup variant,
      apart from the fixed-score name. */
  lemma SameLookupSameScore(t: Option<AccuracyTable>, a: string, b: string)
    requires a != FixedScoreName && b != FixedScoreName
    requires SplitName(a).Some? && SplitName(b).Some?
    requires SplitName(a).value.sequence == SplitName(b).value.sequence
    requires LookupVariant(SplitName(a).value) == LookupVariant(SplitName(b).value)
    ensures GetRmse(t, a) == GetRmse(t, b)
  {
  }

  /** A bare sequence code reads the `baseline` column first. */
  lemma BareCodeReadsBaseline(t: AccuracyTable, s: string)
    requires IsSequenceCode(s) && s in t.index
    requires HasValue(t, s, "baseline")
    ensures GetRmse(Some(t), s) == Some(t.cells[(s, "baseline")])
  {
    BareCodeIsBase(s);
    assert |s| != |FixedScoreName|;
    assert IsFirstHit(t, s, Candidates("base"), 0);
  }

  // ---------------------------------------------------------------------
  // Descriptions and labels
  // ---------------------------------------------------------------------

  /** The text after `"{seq} "` for each described variant. */
  const DescriptionTexts: map<string, string> := map[
    "base" := "Baseline Diagnostics",
    "daac_depth_opt_w100" := "DAAC Depth into Optimization with Weight=100",
    "daac_rgd_inv" := "DAAC RGD with Log-scale Inverse Depth Visualization (15% Depth + 85% Image)",
    "daac_rgd_metric" := "DAAC RGD with Log-scale Metric Depth Visualization (15% Depth + 85% Image)",
    "gt_depth_opt_w100" := "GT Depth into Optimization with Weight=100",
    "gt_depth_opt" := "GT Depth into Optimization with Weight=100",
    "gt_depth_rgd_inverse" := "GT Depth RGD with Log-scale Inverse Depth Visualization (15% Depth + 85% Image)",
    "gt_depth_rgd_metric" := "GT Depth RGD with Log-scale Metric Depth Visualization (15% Depth + 85% Image)",
    "gt_depth_sdi" := "GT Depth Smart Depth Initialization (spoiler: had no effect)",
    "depth_opt" := "Depth Optimization",
    "outlier_opt" := "Outlier Optimization"
  ]

  /** `get_description(name)`: an unparsable name is its own label; a
      parsed one is labelled by its code and either the variant's
      description or, for an unknown variant, the variant itself. */
  function Description(name: string): (r: string)
    ensures SplitName(name).None? ==> r == name
    ensures SplitName(name).Some? ==>
              var p := SplitName(name).value;
              var v := Variant(p);
              && |r| > 6
              && r[..6] == p.sequence + " "
              && (v in DescriptionTexts ==> r[6..] == DescriptionTexts[v])
              && (v !in DescriptionTexts ==> r[6..] == v)
  {
    match SplitName(name)
    case None => name
    case Some(p) =>
      var v := Variant(p);
      var text := if v in DescriptionTexts then DescriptionTexts[v] else v;
      var r := p.sequence + " " + text;
      assert r[6..] == text;
      r
  }

  /** `get_short_variant(name)`: the raw suffix, or `baseline` when the
      name does not parse or has no suffix. */
  function ShortVariant(name: string): (r: string)
    ensures r != []
    ensures SplitName(name).None? ==> r == "baseline"
    ensures SplitName(name).Some? && SplitName(name).value.suffix == [] ==> r == "baseline"
    ensures SplitName(name).Some? && SplitName(name).value.suffix != [] ==> r == SplitName(name).value.suffix
  {
    match SplitName(name)
    case Some(p) => if p.suffix != [] then p.suffix else "baseline"
    case None => "baseline"
  }

  /** The three name consumers agree: the short label is the variant used
      for descriptions except that a bare code is labelled `baseline`
      rather than `base`, and an undescribed variant's description is its
      code followed by its short label. */
  lemma LabelsAgree(name: string)
    requires SplitName(name).Some?
    ensures var p := SplitName(name).value;
            ShortVariant(name) == (if p.suffix == [] then "baseline" else Variant(p))
    ensures var p := SplitName(name).value;
            p.suffix != [] && p.suffix !in DescriptionTexts ==>
              Description(name) == p.sequence + " " + ShortVariant(name)
  {
    var p := SplitName(name).value;
    var d := Description(name);
    assert d == d[..6] + d[6..];
  }

  // ---------------------------------------------------------------------
  // Loading
  // ---------------------------------------------------------------------

  /** `df.iloc[:-1]`: every row of the loaded table except the last, which
      may be corrupt; an empty table stays empty. */
  function DropLastRow<T>(rows: seq<T>): (r: seq<T>)
    ensures r <= rows
    ensures |rows| > 0 ==> |r| == |rows| - 1
    ensures |rows| == 0 ==> r == []
  {
    if rows == [] then [] else rows[..|rows| - 1]
  }

  // ---------------------------------------------------------------------
  // Comparison colouring
  // ---------------------------------------------------------------------

  /** How a change from `a` to `b` is coloured on the comparison page. */
  datatype DeltaClass = Better | Worse | Neutral

  /** A JavaScript number that can arise from the percentage formula:
      finite, or, when the base value is zero, an infinity or NaN. */
  datatype Percent = Finite(v: real) | PlusInfinity | MinusInfinity | NaN

  function Abs(x: real): real
  {
    if x < 0.0 then -x else x
  }

  /** `((b - a) / Math.abs(a)) * 100` in JavaScript: division by a zero
      base gives an infinity of the sign of `b`, or NaN when `b` is zero. */
  function PercentChange(a: real, b: real): Percent
  {
    if a != 0.0 then Finite((b - a) / Abs(a) * 100.0)
    else if b > 0.0 then PlusInfinity
    else if b < 0.0 then MinusInfinity
    else NaN
  }

  /** `p < -1`; NaN compares false. */
  predicate BelowMinusOne(p: Percent)
  {
    match p
    case Finite(v) => v < -1.0
    case MinusInfinity => true
    case _ => false
  }

  /** `p > 1`; NaN compares false. */
  predicate AboveOne(p: Percent)
  {
    match p
    case Finite(v) => v > 1.0
    case PlusInfinity => true
    case _ => false
  }

  /** The comparison page's `diffClass(a, b, lowerBetter)`. */
  function DiffClass(a: real, b: real, lowerBetter: bool): (c: DeltaClass)
    ensures a != 0.0 && lowerBetter ==>
              && (c == Better <==> 100.0 * (b - a) < -Abs(a))
              && (c == Worse <==> 100.0 * (b - a) > Abs(a))
    ensures a != 0.0 && !lowerBetter ==>
              && (c == Better <==> 100.0 * (b - a) > Abs(a))
              && (c == Worse <==> 100.0 * (b - a) < -Abs(a))
    ensures a == 0.0 ==> (c == Neutral <==> b == 0.0)
    ensures a == 0.0 && b > 0.0 ==> c == (if lowerBetter then Worse else Better)
    ensures a == 0.0 && b < 0.0 ==> c == (if lowerBetter then Better else Worse)
  {
    var p := PercentChange(a, b);
    PercentScale(b - a, if a != 0.0 then Abs(a) else 1.0);
    if lowerBetter then
      if BelowMinusOne(p) then Better else if AboveOne(p) then Worse else Neutral
    else
      if AboveOne(p) then Better else if BelowMinusOne(p) then Worse else Neutral
  }

  /** Comparing the percentage with ±1 is comparing `100·d` with `±base`. */
  lemma PercentScale(d: real, base: real)
    requires base > 0.0
    ensures d / base * 100.0 < -1.0 <==> 100.0 * d < -base
    ensures d / base * 100.0 > 1.0 <==> 100.0 * d > base
  {
    var q := d / base;
    assert q * base == d;
    assert 100.0 * d == (q * 100.0) * base;
    if q * 100.0 < -1.0 {
      assert (q * 100.0) * base < -1.0 * base;
    } else {
      assert (q * 100.0) * base >= -1.0 * base;
    }
    if q * 100.0 > 1.0 {
      assert (q * 100.0) * base > 1.0 * base;
    } else {
      assert (q * 100.0) * base <= 1.0 * base;
    }
  }

  /** The opposite colour. */
  function Flip(c: DeltaClass): DeltaClass
  {
    match c
    case Better => Worse
    case Worse => Better
    case Neutral => Neutral
  }

  /** Switching which direction is better swaps the two colours and keeps
      the neutral band. */
  lemma DiffClassDirection(a: real, b: real)
    ensures DiffClass(a, b, false) == Flip(DiffClass(a, b, true))
  {
  }
}

=== FILE: filters.dfy ===
/** Order-preserving filters: `[x for x in xs if keep(x)]`, described by
    the positions of the elements kept. */
module Filters {
  /** `idx` lists the positions of `xs` whose elements `keep` accepts, in
      increasing order: each listed position is kept, every kept position
      is listed, and no position is listed twice. */
  ghost predicate ArePositions<T>(idx: seq<nat>, xs: seq<T>, keep: T -> bool)
  {
    && |idx| <= |xs|
    && (forall k :: 0 <= k < |idx| ==> idx[k] < |xs| && keep(xs[idx[k]]))
    && (forall k, l :: 0 <= k < l < |idx| ==> idx[k] < idx[l])
    && (forall j :: 0 <= j < |xs| && keep(xs[j]) ==> j in idx)
  }

  /** The kept positions of `xs`. */
  ghost function Positions<T>(xs: seq<T>, keep: T -> bool): (idx: seq<nat>)
    ensures ArePositions(idx, xs, keep)
  {
    if xs == [] then []
    else
      var rest := Positions(xs[1..], keep);
      ConsPositions(xs, keep, rest);
      (if keep(xs[0]) then [0] else []) + Shift(rest)
  }

  /** Every position moved one place on. */
  function Shift(idx: seq<nat>): (r: seq<nat>)
    ensures |r| == |idx|
    ensures forall k :: 0 <= k < |idx| ==> r[k] == idx[k] + 1
  {
    seq(|idx|, k requires 0 <= k < |idx| => idx[k] + 1)
  }

  /** The kept positions of the tail, moved on by one, and the head when
      it is kept, are the kept positions of the whole. */
  lemma ConsPositions<T>(xs: seq<T>, keep: T -> bool, rest: seq<nat>)
    requires xs != [] && ArePositions(rest, xs[1..], keep)
    ensures ArePositions((if keep(xs[0]) then [0] else []) + Shift(rest), xs, keep)
  {
    var idx := (if keep(xs[0]) then [0] else []) + Shift(rest);
    ConsKept(xs, keep, rest, idx);
    ConsIncreasing(xs, keep, rest, idx);
    ConsComplete(xs, keep, rest, idx);
  }

  /** Every listed position of the whole is kept. */
  lemma ConsKept<T>(xs: seq<T>, keep: T -> bool, rest: seq<nat>, idx: seq<nat>)
    requires xs != [] && ArePositions(rest, xs[1..], keep)
    requires idx == (if keep(xs[0]) then [0] else []) + Shift(rest)
    ensures forall k :: 0 <= k < |idx| ==> idx[k] < |xs| && keep(xs[idx[k]])
  {
    var h := |idx| - |rest|;
    forall k | h <= k < |idx|
      ensures idx[k] < |xs| && keep(xs[idx[k]])
    {
      assert idx[k] == rest[k - h] + 1;
      assert xs[1..][rest[k - h]] == xs[idx[k]];
    }
  }

  /** The positions of the whole are increasing. */
  lemma ConsIncreasing<T>(xs: seq<T>, keep: T -> bool, rest: seq<nat>, idx: seq<nat>)
    requires xs != [] && ArePositions(rest, xs[1..], keep)
    requires idx == (if keep(xs[0]) then [0] else []) + Shift(rest)
    ensures forall k, l :: 0 <= k < l < |idx| ==> idx[k] < idx[l]
  {
    var h := |idx| - |rest|;
    assert forall k :: h <= k < |idx| ==> idx[k] == rest[k - h] + 1;
  }

  /** Every kept position of the whole is listed. */
  lemma ConsComplete<T>(xs: seq<T>, keep: T -> bool, rest: seq<nat>, idx: seq<nat>)
    requires xs != [] && ArePositions(rest, xs[1..], keep)
    requires idx == (if keep(xs[0]) then [0] else []) + Shift(rest)
    ensures forall j :: 0 <= j < |xs| && keep(xs[j]) ==> j in idx
  {
    var h := |idx| - |rest|;
    forall j | 0 <= j < |xs| && keep(xs[j])
      ensures j in idx
    {
      if j == 0 {
        assert idx[0] == 0;
      } else {
        assert xs[1..][j - 1] == xs[j];
        var m :| 0 <= m < |rest| && rest[m] == j - 1;
        assert idx[h + m] == j;
      }
    }
  }

  /** `r` is `xs` filtered by `keep`: the elements at the kept positions,
      in the order of `xs`. */
  ghost predicate IsFilterOf<T>(r: seq<T>, xs: seq<T>, keep: T -> bool)
  {
    var idx := Positions(xs, keep);
    |r| == |idx| && forall k :: 0 <= k < |idx| ==> idx[k] < |xs| && r[k] == xs[idx[k]]
  }

  /** `[x for x in xs if keep(x)]` (see `FilterKeepsOrder`). */
  function Filter<T>(xs: seq<T>, keep: T -> bool): seq<T>
  {
    if xs == [] then [] else (if keep(xs[0]) then [xs[0]] else []) + Filter(xs[1..], keep)
  }

  /** A filter holds exactly the kept elements, in their order. */
  lemma {:induction false} FilterKeepsOrder<T>(xs: seq<T>, keep: T -> bool)
    ensures IsFilterOf(Filter(xs, keep), xs, keep)
  {
    if xs != [] {
      FilterKeepsOrder(xs[1..], keep);
      FilterStep(xs, keep, Filter(xs[1..], keep));
    }
  }

  /** Filtering the head, then the tail, filters the whole. */
  lemma FilterStep<T>(xs: seq<T>, keep: T -> bool, rest: seq<T>)
    requires xs != [] && IsFilterOf(rest, xs[1..], keep)
    ensures IsFilterOf((if keep(xs[0]) then [xs[0]] else []) + rest, xs, keep)
  {
    var r := (if keep(xs[0]) then [xs[0]] else []) + rest;
    var idx := Positions(xs, keep);
    var tail := Positions(xs[1..], keep);
    var h := if keep(xs[0]) then 1 else 0;
    assert |idx| == h + |tail|;
    forall k | 0 <= k < |idx|
      ensures r[k] == xs[idx[k]]
    {
      if k >= h {
        assert idx[k] == tail[k - h] + 1;
        assert r[k] == rest[k - h] == xs[1..][tail[k - h]];
      }
    }
  }

  /** A filter is empty exactly when no element is kept. */
  lemma FilterEmpty<T>(xs: seq<T>, keep: T -> bool)
    ensures Filter(xs, keep) == [] <==> forall j :: 0 <= j < |xs| ==> !keep(xs[j])
  {
    FilterKeepsOrder(xs, keep);
    var idx := Positions(xs, keep);
    if idx != [] {
      assert keep(xs[idx[0]]);
    } else {
      forall j | 0 <= j < |xs|
        ensures !keep(xs[j])
      {
        assert j !in idx;
      }
    }
  }

  /** The last element of a non-empty filter comes from the last kept
      position `j`: every later element is rejected. */
  lemma FilterLast<T>(xs: seq<T>, keep: T -> bool) returns (j: nat)
    requires Filter(xs, keep) != []
    ensures j < |xs| && keep(xs[j])
    ensures Filter(xs, keep)[|Filter(xs, keep)| - 1] == xs[j]
    ensures forall i :: j < i < |xs| ==> !keep(xs[i])
  {
    FilterKeepsOrder(xs, keep);
    var idx := Positions(xs, keep);
    var n := |idx| - 1;
    j := idx[n];
    forall i | j < i < |xs|
      ensures !keep(xs[i])
    {
      assert forall m :: 0 <= m < |idx| ==> idx[m] <= idx[n];
    }
  }

  /** Filtering a non-empty sequence looks at its head, then filters its
      tail. */
  lemma FilterCons<T>(xs: seq<T>, keep: T -> bool)
    requires xs != []
    ensures Filter(xs, keep) == (if keep(xs[0]) then [xs[0]] else []) + Filter(xs[1..], keep)
  {
  }

  /** An element is in a filter exactly when it is in the sequence and
      kept. */
  lemma {:induction false} FilterHas<T>(xs: seq<T>, keep: T -> bool, x: T)
    ensures x in Filter(xs, keep) <==> x in xs && keep(x)
  {
    if xs != [] {
      FilterHas(xs[1..], keep, x);
      assert x in xs <==> x == xs[0] || x in xs[1..];
    }
  }

  /** A test that keeps everything leaves the sequence as it is. */
  lemma {:induction false} FilterAll<T>(xs: seq<T>, keep: T -> bool)
    requires forall j :: 0 <= j < |xs| ==> keep(xs[j])
    ensures Filter(xs, keep) == xs
  {
    if xs != [] {
      FilterAll(xs[1..], keep);
      assert [xs[0]] + xs[1..] == xs;
    }
  }

  /** Filtering twice is filtering once by both tests. */
  lemma {:induction false} FilterTwice<T>(xs: seq<T>, p: T -> bool, q: T -> bool, both: T -> bool)
    requires forall x :: both(x) == (p(x) && q(x))
    ensures Filter(Filter(xs, p), q) == Filter(xs, both)
  {
    if xs != [] {
      var x := xs[0];
      var tail := xs[1..];
      FilterTwice(tail, p, q, both);
      var rest := Filter(tail, p);
      assert Filter(xs, p) == (if p(x) then [x] else []) + rest;
      assert Filter(xs, both) == (if both(x) then [x] else []) + Filter(tail, both);
      assert both(x) == (p(x) && q(x));
      if p(x) {
        var once := [x] + rest;
        assert once[0] == x && once[1..] == rest;
        assert Filter(once, q) == (if q(x) then [x] else []) + Filter(rest, q);
        assert Filter(Filter(xs, p), q) == Filter(xs, both);
      } else {
        assert Filter(xs, p) == rest;
        assert Filter(Filter(xs, p), q) == Filter(xs, both);
      }
    }
  }

  /** The first position in `[p, n)` that passes `hit`, or `n` when none
      does. */
  function FirstHit(n: nat, p: nat, hit: nat -> bool): (r: nat)
    requires p <= n
    ensures p <= r <= n
    decreases n - p
  {
    if p == n || hit(p) then p else FirstHit(n, p + 1, hit)
  }

  /** `FirstHit` stops at a passing position, and passes none on the way. */
  lemma {:induction false} FirstHitIsLeftmost(n: nat, p: nat, hit: nat -> bool)
    requires p <= n
    ensures FirstHit(n, p, hit) < n ==> hit(FirstHit(n, p, hit))
    ensures forall j :: p <= j < FirstHit(n, p, hit) ==> !hit(j)
    decreases n - p
  {
    if p < n && !hit(p) {
      FirstHitIsLeftmost(n, p + 1, hit);
    }
  }
}

=== FILE: options.dfy ===
/** Optional values and results, used wherever the scripts return `None`
    or raise an exception instead of producing a value. */
module Options {

  /** A value that may be absent: Python's `None` versus a present value. */
  datatype Option<+T> = None | Some(value: T)

  /** The outcome of a step that may raise instead of returning. */
  datatype Result<+R, +E> = Success(value: R) | Failure(error: E)
}

=== FILE: results_log.dfy ===
/** The pure part of the results-table generator's input side: splitting
    a run directory's name into sequence code and variant, and reducing
    the text of a run's results log to a run record. */
module ResultsLog {
  import opened Options
  import opened Text
  import Dashboard
  import opened Filters

  // ---------------------------------------------------------------------
  // Directory names
  // ---------------------------------------------------------------------

  /** A run directory's sequence code and (non-empty) variant. */
  datatype DirName = DirName(sequence: string, variant: string)

  /** Where the variant starts: after an underscore only when something
      other than a line end follows it, since `.+` needs one character. */
  function VariantStart(name: string): nat
  {
    if |name| > 6 && name[5] == '_' && name[6] != '\n' then 6 else 5
  }

  /** `parse_directory_name`: `re.match(r'(P\d{4})_?(.+)', name)`. The
      optional underscore gives way when it is the only character left on
      the line, which then becomes the variant itself. */
  function ParseDirectoryName(name: string): (r: Option<DirName>)
    ensures r.None? <==>
              || !(|name| >= 5 && Dashboard.IsSequenceCode(name[..5]))
              || |name| == 5
              || name[5] == '\n'
    ensures r.Some? ==>
              var start := VariantStart(name);
              var v := r.value.variant;
              && r.value.sequence == name[..5]
              && v != []
              && '\n' !in v
              && start + |v| <= |name|
              && name[start..start + |v|] == v
              && (start + |v| == |name| || name[start + |v|] == '\n')
  {
    if |name| > 5 && Dashboard.IsSequenceCode(name[..5]) && name[5] != '\n' then
      var start := VariantStart(name);
      var v := LineHead(name[start..]);
      assert name[start..][..|v|] == name[start..start + |v|];
      Some(DirName(name[..5], v))
    else
      None
  }

  /** A code followed by a one-line tail: nothing without a tail, the tail
      less one leading underscore when more follows it, else the tail. */
  lemma ParseCodeAndTail(s: string, w: string)
    requires Dashboard.IsSequenceCode(s)
    requires '\n' !in w
    ensures ParseDirectoryName(s + w) ==
              if w == [] then None
              else if |w| >= 2 && w[0] == '_' then Some(DirName(s, w[1..]))
              else Some(DirName(s, w))
  {
    var n := s + w;
    assert n[..5] == s;
    assert n[5..] == w;
    if w != [] {
      var start := VariantStart(n);
      var tail := n[start..];
      assert tail == w[start - 5..];
      assert forall c :: c in tail ==> c in w;
      LineHeadWithoutNewline(tail);
    }
  }

  /** A bare code does not parse: the variant needs one character. */
  lemma BareCodeHasNoVariant(s: string)
    requires Dashboard.IsSequenceCode(s)
    ensures ParseDirectoryName(s).None?
  {
  }

  /** A code followed by a lone underscore has the underscore as its
      variant. */
  lemma LoneUnderscoreIsVariant(s: string)
    requires Dashboard.IsSequenceCode(s)
    ensures ParseDirectoryName(s + "_") == Some(DirName(s, "_"))
  {
    ParseCodeAndTail(s, "_");
  }

  /** The documented directory names: with or without an underscore
      after the code, the rest of the name is the variant. */
  lemma DocumentedDirectoryNames(s: string)
    requires Dashboard.IsSequenceCode(s)
    ensures ParseDirectoryName(s + "_daac_depth_w100") == Some(DirName(s, "daac_depth_w100"))
    ensures ParseDirectoryName(s + "base_w0") == Some(DirName(s, "base_w0"))
    ensures ParseDirectoryName(s + "sdi_w0") == Some(DirName(s, "sdi_w0"))
  {
    UnderscoredName(s, "_daac_depth_w100");
    PlainName(s, "base_w0");
    PlainName(s, "sdi_w0");
  }

  /** A code, an underscore and a one-line variant parse to that variant. */
  lemma UnderscoredName(s: string, w: string)
    requires Dashboard.IsSequenceCode(s) && |w| >= 2 && w[0] == '_' && '\n' !in w
    ensures ParseDirectoryName(s + w) == Some(DirName(s, w[1..]))
  {
    ParseCodeAndTail(s, w);
  }

  /** A code directly followed by a one-line variant that does not start
      with an underscore parses to that variant. */
  lemma PlainName(s: string, v: string)
    requires Dashboard.IsSequenceCode(s) && v != [] && '\n' !in v && v[0] != '_'
    ensures ParseDirectoryName(s + v) == Some(DirName(s, v))
  {
    ParseCodeAndTail(s, v);
  }

  /** The two scripts' name parsers agree on one-line names, except that
      the dashboard lets the underscore swallow a lone trailing `_`. */
  lemma ParsersAgree(name: string)
    requires '\n' !in name
    requires ParseDirectoryName(name).Some?
    ensures Dashboard.SplitName(name).Some?
    ensures var d := ParseDirectoryName(name).value;
            var p := Dashboard.SplitName(name).value;
            && p.sequence == d.sequence
            && (p.suffix == d.variant || (p.suffix == [] && d.variant == "_"))
  {
    Dashboard.SplitOneLineName(name);
    var start := VariantStart(name);
    assert forall c :: c in name[start..] ==> c in name;
    LineHeadWithoutNewline(name[start..]);
  }

  // ---------------------------------------------------------------------
  // Scanning a batch for reported RMSE values
  // ---------------------------------------------------------------------

  /** A character of `[\d.]`. */
  predicate IsTokenChar(c: char)
  {
    IsAsciiDigit(c) || c == '.'
  }

  /** What `[\d.]+` matches: a non-empty run of digits and dots. */
  predicate IsToken(t: string)
  {
    |t| > 0 && forall k :: 0 <= k < |t| ==> IsTokenChar(t[k])
  }

  /** The letters of `rmse` under case-insensitive matching; Python also
      folds the long s (U+017F) to `s`. */
  predicate IsR(c: char) { c == 'r' || c == 'R' }
  predicate IsM(c: char) { c == 'm' || c == 'M' }
  predicate IsS(c: char) { c == 's' || c == 'S' || c == '\U{017F}' }
  predicate IsE(c: char) { c == 'e' || c == 'E' }

  /** `rmse`, in any case, starts at index `p` of `s`. */
  predicate KeywordAt(s: string, p: int)
  {
    0 <= p && p + 4 <= |s| && IsR(s[p]) && IsM(s[p + 1]) && IsS(s[p + 2]) && IsE(s[p + 3])
  }

  /** The length of the run of digits and dots starting at `p`. */
  function TokenRun(s: string, p: nat): (n: nat)
    requires p <= |s|
    ensures p + n <= |s|
    ensures forall k :: p <= k < p + n ==> IsTokenChar(s[k])
    ensures p + n == |s| || !IsTokenChar(s[p + n])
    decreases |s| - p
  {
    if p < |s| && IsTokenChar(s[p]) then 1 + TokenRun(s, p + 1) else 0
  }

  /** A match of `rmse\s+([\d.]+)`: the captured number and where the
      match ends. */
  datatype Match = Match(token: string, end: nat)

  /** `rmse`, then whitespace up to `q`, then a number from `q` to `e`. */
  ghost predicate MatchShape(s: string, p: int, q: int, e: int)
  {
    && KeywordAt(s, p)
    && p + 4 < q < e <= |s|
    && (forall k :: p + 4 <= k < q ==> IsSpace(s[k]))
    && (forall k :: q <= k < e ==> IsTokenChar(s[k]))
  }

  /** Try the pattern at index `p`. Both runs are greedy and the two
      classes share no character, so there is no backtracking: the match,
      when there is one, captures the whole run of digits and dots (see
      `MatchAtShape` for the shape it matches). */
  function MatchAt(s: string, p: nat): (r: Option<Match>)
    requires p <= |s|
    ensures r.Some? ==>
              var q := r.value.end - |r.value.token|;
              && KeywordAt(s, p)
              && p + 4 < q < r.value.end <= |s|
              && s[q..r.value.end] == r.value.token
              && IsToken(r.value.token)
              && (r.value.end == |s| || !IsTokenChar(s[r.value.end]))
              && AllSpace(s[p + 4..q])
  {
    if KeywordAt(s, p) then
      var q := SpaceRunEnd(s, p + 4);
      var n := TokenRun(s, q);
      if q > p + 4 && n > 0 then
        var t := s[q..q + n];
        assert forall k :: 0 <= k < n ==> t[k] == s[q + k];
        Some(Match(t, q + n))
      else
        None
    else
      None
  }

  /** The pattern matches at `p` exactly when a match shape starts there,
      and the match found is that shape. */
  lemma MatchAtShape(s: string, p: nat)
    requires p <= |s|
    ensures MatchAt(s, p).Some? ==>
              var m := MatchAt(s, p).value;
              MatchShape(s, p, m.end - |m.token|, m.end)
    ensures MatchAt(s, p).None? ==> forall q, e :: !MatchShape(s, p, q, e)
  {
    MatchShapesForced(s, p);
    if MatchAt(s, p).Some? {
      var m := MatchAt(s, p).value;
      var q := m.end - |m.token|;
      assert forall k :: q <= k < m.end ==> s[k] == m.token[k - q];
    }
  }

  /** In a match, the whitespace is the whole whitespace run after the
      keyword, and a number follows it. */
  lemma MatchShapeForced(s: string, p: nat, q: int, e: int)
    requires MatchShape(s, p, q, e)
    ensures q == SpaceRunEnd(s, p + 4)
    ensures TokenRun(s, q) > 0
  {
    var w := SpaceRunEnd(s, p + 4);
    assert IsTokenChar(s[q]);
    assert q <= w;
  }

  /** Every way of matching at `p` is the one `MatchAt` tries. */
  lemma MatchShapesForced(s: string, p: nat)
    requires p <= |s|
    ensures forall q, e :: MatchShape(s, p, q, e) ==>
              && SpaceRunEnd(s, p + 4) > p + 4
              && TokenRun(s, SpaceRunEnd(s, p + 4)) > 0
  {
    forall q, e | MatchShape(s, p, q, e)
      ensures SpaceRunEnd(s, p + 4) > p + 4 && TokenRun(s, SpaceRunEnd(s, p + 4)) > 0
    {
      MatchShapeForced(s, p, q, e);
    }
  }

  /** The positions of `s` where the pattern matches. */
  function MatchesAt(s: string): nat -> bool
  {
    (j: nat) => j < |s| && MatchAt(s, j).Some?
  }

  /** The leftmost position at or after `p` where the pattern matches
      (see `NextMatchIsLeftmost`). */
  function NextMatch(s: string, p: nat): (r: Option<nat>)
    requires p <= |s|
    ensures r.Some? ==> p <= r.value < |s|
  {
    var i := FirstHit(|s|, p, MatchesAt(s));
    if i == |s| then None else Some(i)
  }

  /** `NextMatch` finds a match, and no earlier one; when it finds none,
      there is none. */
  lemma NextMatchIsLeftmost(s: string, p: nat)
    requires p <= |s|
    ensures NextMatch(s, p).Some? ==> MatchAt(s, NextMatch(s, p).value).Some?
    ensures NextMatch(s, p).Some? ==> forall j :: p <= j < NextMatch(s, p).value ==> MatchAt(s, j).None?
    ensures NextMatch(s, p).None? ==> forall j :: p <= j <= |s| ==> MatchAt(s, j).None?
  {
    var i := FirstHit(|s|, p, MatchesAt(s));
    FirstHitIsLeftmost(|s|, p, MatchesAt(s));
    forall j | p <= j < i
      ensures MatchAt(s, j).None?
    {
      assert !MatchesAt(s)(j);
    }
    if i < |s| {
      assert MatchesAt(s)(i);
    } else {
      assert !KeywordAt(s, |s|);
    }
  }

  /** `re.findall(r'rmse\s+([\d.]+)', s[p..], re.IGNORECASE)`: scan left
      to right, resuming after each match. Nothing is found exactly when
      nothing matches at or after `p` (`FindNothing`); otherwise the first
      number is the one matched at the leftmost matching position, and the
      scan resumes after it (`FindLeftmost`). */
  function FindFrom(s: string, p: nat): (tokens: seq<string>)
    requires p <= |s|
    ensures forall k :: 0 <= k < |tokens| ==> IsToken(tokens[k])
    ensures 6 * |tokens| <= |s| - p
    decreases |s| - p
  {
    if p == |s| then []
    else
      match MatchAt(s, p)
      case Some(m) => [m.token] + FindFrom(s, m.end)
      case None => FindFrom(s, p + 1)
  }

  /** The scan finds the leftmost match, then carries on after its end:
      the matches it reports do not overlap, and no match is skipped. */
  lemma FindLeftmost(s: string, p: nat)
    requires p <= |s| && NextMatch(s, p).Some?
    ensures MatchAt(s, NextMatch(s, p).value).Some?
    ensures var m := MatchAt(s, NextMatch(s, p).value).value;
            m.end <= |s| && FindFrom(s, p) == [m.token] + FindFrom(s, m.end)
  {
    NextMatchIsLeftmost(s, p);
    var i := NextMatch(s, p).value;
    var j := p;
    while j < i
      invariant p <= j <= i
      invariant FindFrom(s, j) == FindFrom(s, p)
    {
      assert MatchAt(s, j).None?;
      FindStep(s, j);
      j := j + 1;
    }
    FindStep(s, i);
  }

  /** The scan finds nothing exactly when the pattern matches nowhere at
      or after `p`. */
  lemma FindNothing(s: string, p: nat)
    requires p <= |s|
    ensures FindFrom(s, p) == [] <==> NextMatch(s, p).None?
  {
    NextMatchIsLeftmost(s, p);
    if NextMatch(s, p).Some? {
      FindLeftmost(s, p);
    } else {
      var j := p;
      while j < |s|
        invariant p <= j <= |s|
        invariant FindFrom(s, j) == FindFrom(s, p)
      {
        assert MatchAt(s, j).None?;
        FindStep(s, j);
        j := j + 1;
      }
    }
  }

  /** One step of the scan at `p`. */
  lemma FindStep(s: string, p: nat)
    requires p < |s|
    ensures MatchAt(s, p).None? ==> FindFrom(s, p) == FindFrom(s, p + 1)
    ensures MatchAt(s, p).Some? ==>
              var m := MatchAt(s, p).value;
              m.end <= |s| && FindFrom(s, p) == [m.token] + FindFrom(s, m.end)
  {
  }

  /** The numbers reported in a batch, in order: none exactly when the
      batch holds no report, and first the one of the leftmost report. */
  function ReportedTokens(batch: string): (tokens: seq<string>)
    ensures forall k :: 0 <= k < |tokens| ==> IsToken(tokens[k])
    ensures tokens == [] <==> forall i, q, e :: 0 <= i ==> !MatchShape(batch, i, q, e)
    ensures tokens != [] ==>
              && NextMatch(batch, 0).Some?
              && MatchAt(batch, NextMatch(batch, 0).value).Some?
              && tokens[0] == MatchAt(batch, NextMatch(batch, 0).value).value.token
  {
    NoMatchNoShape(batch, 0);
    FindNothing(batch, 0);
    NextMatchIsLeftmost(batch, 0);
    if NextMatch(batch, 0).Some? then
      FindLeftmost(batch, 0);
      FindFrom(batch, 0)
    else
      FindFrom(batch, 0)
  }

  /** No match is found from `p` on exactly when no match shape starts at
      or after `p`. */
  lemma NoMatchNoShape(s: string, p: nat)
    requires p <= |s|
    ensures NextMatch(s, p).None? <==> forall i, q, e :: p <= i ==> !MatchShape(s, i, q, e)
  {
    NextMatchIsLeftmost(s, p);
    match NextMatch(s, p)
    case Some(i) =>
      MatchAtShape(s, i);
      var m := MatchAt(s, i).value;
      assert MatchShape(s, i, m.end - |m.token|, m.end);
    case None =>
      forall i, q, e | p <= i
        ensures !MatchShape(s, i, q, e)
      {
        if i <= |s| {
          MatchAtShape(s, i);
        }
      }
  }

  /** A batch that is a single report — `rmse` in any case, whitespace,
      a number — yields exactly that number. */
  lemma SingleReport(keyword: string, gap: string, t: string)
    requires |keyword| == 4 && KeywordAt(keyword, 0)
    requires gap != [] && AllSpace(gap)
    requires IsToken(t)
    ensures ReportedTokens(keyword + gap + t) == [t]
  {
    var s := keyword + gap + t;
    var q := 4 + |gap|;
    assert forall k :: 0 <= k < 4 ==> s[k] == keyword[k];
    assert forall k :: 4 <= k < q ==> s[k] == gap[k - 4];
    assert forall k :: q <= k < |s| ==> s[k] == t[k - q];
    assert MatchShape(s, 0, q, |s|);
    MatchShapeForced(s, 0, q, |s|);
    assert TokenRun(s, q) == |s| - q;
    assert s[q..|s|] == t;
    assert MatchAt(s, 0) == Some(Match(t, |s|));
    FindStep(s, 0);
  }

  // ---------------------------------------------------------------------
  // Numbers
  // ---------------------------------------------------------------------

  /** The number of dots in `t`. */
  function DotCount(t: string): nat
  {
    if t == [] then 0 else (if t[0] == '.' then 1 else 0) + DotCount(t[1..])
  }

  lemma {:induction false} DotCountAppend(a: string, b: string)
    ensures DotCount(a + b) == DotCount(a) + DotCount(b)
  {
    if a != [] {
      assert (a + b)[0] == a[0];
      assert (a + b)[1..] == a[1..] + b;
      DotCountAppend(a[1..], b);
    } else {
      assert a + b == b;
    }
  }

  /** `t` contains at least one digit. */
  predicate HasDigit(t: string)
  {
    exists k :: 0 <= k < |t| && IsAsciiDigit(t[k])
  }

  /** A token `float()` accepts: at most one dot and at least one digit
      (`1.`, `.5` and `007` are numbers; `.`, `..` and `1.2.3` are not). */
  predicate IsDecimal(t: string)
  {
    IsToken(t) && DotCount(t) <= 1 && HasDigit(t)
  }

  /** The value of a run of ASCII digits. */
  function DigitsValue(ds: string): nat
    requires forall k :: 0 <= k < |ds| ==> IsAsciiDigit(ds[k])
  {
    if ds == [] then 0
    else
      var d := ds[|ds| - 1];
      assert IsAsciiDigit(d);
      DigitsValue(ds[..|ds| - 1]) * 10 + (d as int - '0' as int)
  }

  function Pow10(n: nat): (r: nat)
    ensures r > 0
  {
    if n == 0 then 1 else 10 * Pow10(n - 1)
  }

  /** A dot-free string has no dots to count. */
  lemma {:induction false} NoDotsCount(t: string)
    requires forall k :: 0 <= k < |t| ==> t[k] != '.'
    ensures DotCount(t) == 0
  {
    if t != [] {
      NoDotsCount(t[1..]);
    }
  }

  /** Where there are dots, there is a count. */
  lemma {:induction false} DotsCount(t: string, i: int)
    requires 0 <= i < |t| && t[i] == '.'
    ensures DotCount(t) >= 1
  {
    if i > 0 {
      DotsCount(t[1..], i - 1);
    }
  }

  /** The first dot splits the count: none before it, one at it. */
  lemma {:induction false} DotIndexSplit(t: string)
    ensures var i := CharIndex(t, '.');
            && (i < |t| ==> DotCount(t) == 1 + DotCount(t[i + 1..]))
            && (i == |t| ==> DotCount(t) == 0)
  {
    var i := CharIndex(t, '.');
    if i < |t| {
      FirstDotCount(t, i);
    } else {
      NoDotsCount(t);
    }
  }

  /** A dot with none before it contributes the only dot of its prefix. */
  lemma {:induction false} FirstDotCount(t: string, i: int)
    requires 0 <= i < |t| && t[i] == '.'
    requires forall k :: 0 <= k < i ==> t[k] != '.'
    ensures DotCount(t) == 1 + DotCount(t[i + 1..])
  {
    var whole := t[..i];
    var dotted := t[i..];
    assert forall k :: 0 <= k < i ==> whole[k] == t[k];
    NoDotsCount(whole);
    assert t == whole + dotted;
    DotCountAppend(whole, dotted);
    assert dotted[0] == '.' && dotted[1..] == t[i + 1..];
  }

  /** `float(token)` on a token of digits and dots: the exact decimal value,
      or nothing where Python raises `ValueError`. */
  function DecimalValue(t: string): (r: Option<real>)
    requires IsToken(t)
    ensures r.Some? <==> IsDecimal(t)
    ensures r.Some? ==> r.value >= 0.0
  {
    var i := CharIndex(t, '.');
    var whole := t[..i];
    var frac := if i < |t| then t[i + 1..] else [];
    DotIndexSplit(t);
    if CharIndex(frac, '.') < |frac| then
      DotsCount(frac, CharIndex(frac, '.'));
      None
    else
      NoDotsCount(frac);
      if whole == [] && frac == [] then
        None
      else
        assert HasDigit(t) by {
          if whole != [] {
            assert t[0] == whole[0];
          } else {
            assert t[i + 1] == frac[0];
          }
        }
        Some(DigitsValue(whole) as real + DigitsValue(frac) as real / Pow10(|frac|) as real)
  }

  /** The decimal numeral of `n`, without leading zeros. */
  function Numeral(n: nat): (ds: string)
    ensures ds != []
    ensures forall k :: 0 <= k < |ds| ==> IsAsciiDigit(ds[k])
  {
    var d := ['0' + (n % 10) as char];
    if n < 10 then d else Numeral(n / 10) + d
  }

  /** A numeral reads back as its number. */
  lemma {:induction false} NumeralValue(n: nat)
    ensures DigitsValue(Numeral(n)) == n
  {
    var ds := Numeral(n);
    if n >= 10 {
      NumeralValue(n / 10);
      assert ds[..|ds| - 1] == Numeral(n / 10);
    }
  }

  /** A digit string has no dots, so its first dot is past its end. */
  lemma {:induction false} DigitsHaveNoDot(ds: string)
    requires forall k :: 0 <= k < |ds| ==> IsAsciiDigit(ds[k])
    ensures CharIndex(ds, '.') == |ds|
  {
    if ds != [] {
      DigitsHaveNoDot(ds[1..]);
    }
  }

  /** Printing a whole number and reading it back gives the number. */
  lemma NumeralRoundTrip(n: nat)
    ensures IsToken(Numeral(n))
    ensures DecimalValue(Numeral(n)) == Some(n as real)
  {
    var ds := Numeral(n);
    DigitsHaveNoDot(ds);
    NumeralValue(n);
    assert ds[..|ds|] == ds;
  }

  // ---------------------------------------------------------------------
  // Batches and run records
  // ---------------------------------------------------------------------

  /** The literal that starts each experiment batch in a results log. */
  const BatchMarker: string := "Experiment Batch Start:"

  /** A stripped piece that is kept as a batch. */
  predicate NonBlank(b: string)
  {
    b != []
  }

  /** Every piece stripped. */
  function StripAll(parts: seq<string>): (ss: seq<string>)
    ensures |ss| == |parts|
    ensures forall i :: 0 <= i < |parts| ==> ss[i] == Strip(parts[i])
  {
    seq(|parts|, i requires 0 <= i < |parts| => Strip(parts[i]))
  }

  /** The positions of the pieces that are not blank. */
  ghost function NonBlankPositions(parts: seq<string>): seq<nat>
  {
    Positions(StripAll(parts), NonBlank)
  }

  /** `bs` holds, in order, the stripped pieces of `parts` that are not
      blank: `idx` lists exactly the positions of the non-blank pieces, in
      increasing order, and batch `k` is piece `idx[k]` stripped. */
  ghost predicate StrippedPieces(bs: seq<string>, parts: seq<string>, idx: seq<nat>)
  {
    && |bs| == |idx|
    && (forall k :: 0 <= k < |idx| ==> idx[k] < |parts| && bs[k] == Strip(parts[idx[k]]))
    && (forall k, l :: 0 <= k < l < |idx| ==> idx[k] < idx[l])
    && (forall i :: 0 <= i < |parts| ==> (i in idx <==> !AllSpace(parts[i])))
  }

  /** `[b.strip() for b in parts if b.strip()]` (see `StrippedInOrder`). */
  function StrippedNonBlank(parts: seq<string>): seq<string>
  {
    Filter(StripAll(parts), NonBlank)
  }

  /** The kept pieces are the pieces that are not blank, stripped, in
      order. */
  lemma StrippedInOrder(parts: seq<string>)
    ensures StrippedPieces(StrippedNonBlank(parts), parts, NonBlankPositions(parts))
  {
    FilterKeepsOrder(StripAll(parts), NonBlank);
    NonBlankPieces(parts, StrippedNonBlank(parts));
  }

  /** No kept piece is empty or starts or ends with whitespace. */
  lemma StrippedTrimmed(parts: seq<string>)
    ensures var bs := StrippedNonBlank(parts);
            forall k :: 0 <= k < |bs| ==> bs[k] != [] && !IsSpace(bs[k][0]) && !IsSpace(bs[k][|bs[k]| - 1])
  {
    FilterKeepsOrder(StripAll(parts), NonBlank);
    NonBlankTrimmed(parts, StrippedNonBlank(parts));
  }

  /** The filter of the stripped pieces by `NonBlank` is what
      `StrippedPieces` describes. */
  lemma NonBlankPieces(parts: seq<string>, bs: seq<string>)
    requires IsFilterOf(bs, StripAll(parts), NonBlank)
    ensures StrippedPieces(bs, parts, NonBlankPositions(parts))
  {
    var ss := StripAll(parts);
    var idx := NonBlankPositions(parts);
    forall i | 0 <= i < |parts|
      ensures i in idx <==> !AllSpace(parts[i])
    {
      assert NonBlank(ss[i]) <==> !AllSpace(parts[i]);
    }
  }

  /** Each piece kept by the filter is a non-blank piece stripped, so it
      has no whitespace at either end. */
  lemma NonBlankTrimmed(parts: seq<string>, bs: seq<string>)
    requires IsFilterOf(bs, StripAll(parts), NonBlank)
    ensures forall k :: 0 <= k < |bs| ==> bs[k] != [] && !IsSpace(bs[k][0]) && !IsSpace(bs[k][|bs[k]| - 1])
  {
    var ss := StripAll(parts);
    var idx := NonBlankPositions(parts);
    forall k | 0 <= k < |bs|
      ensures bs[k] != [] && !IsSpace(bs[k][0]) && !IsSpace(bs[k][|bs[k]| - 1])
    {
      assert NonBlank(ss[idx[k]]);
      StripEnds(parts[idx[k]]);
    }
  }

  /** The batches of a results log: the text split on the marker, each
      piece stripped, blank pieces dropped (see `BatchesInOrder`). */
  function Batches(content: string): (bs: seq<string>)
    ensures forall k :: 0 <= k < |bs| ==> bs[k] != [] && !IsSpace(bs[k][0]) && !IsSpace(bs[k][|bs[k]| - 1])
  {
    StrippedTrimmed(Split(content, BatchMarker));
    StrippedNonBlank(Split(content, BatchMarker))
  }

  /** The batches are the pieces of the text that are not blank, each
      stripped, in the order of the text. */
  lemma BatchesInOrder(content: string)
    ensures var parts := Split(content, BatchMarker);
            StrippedPieces(Batches(content), parts, NonBlankPositions(parts))
  {
    StrippedInOrder(Split(content, BatchMarker));
  }

  /** The last batch is the last piece that is not blank, stripped: every
      piece after piece `i` is blank. */
  lemma LastBatchIsLastPiece(content: string) returns (i: nat)
    requires Batches(content) != []
    ensures var parts := Split(content, BatchMarker);
            && i < |parts| && !AllSpace(parts[i])
            && Last(Batches(content)) == Strip(parts[i])
            && forall j :: i < j < |parts| ==> AllSpace(parts[j])
  {
    var parts := Split(content, BatchMarker);
    var bs := Batches(content);
    var idx := NonBlankPositions(parts);
    BatchesInOrder(content);
    var n := |idx| - 1;
    i := idx[n];
    assert i in idx;
    forall j | i < j < |parts|
      ensures AllSpace(parts[j])
    {
      assert forall m :: 0 <= m < |idx| ==> idx[m] <= idx[n];
      assert j !in idx;
    }
  }

  /** A log has no batches exactly when every piece is blank. */
  lemma NoBatches(content: string)
    ensures var parts := Split(content, BatchMarker);
            Batches(content) == [] <==> forall j :: 0 <= j < |parts| ==> AllSpace(parts[j])
  {
    var parts := Split(content, BatchMarker);
    var idx := NonBlankPositions(parts);
    BatchesInOrder(content);
    if idx != [] {
      assert idx[0] in idx;
    }
  }

  /** Text before the first marker that is not blank is the first batch. */
  lemma LeadingTextIsFirstBatch(content: string)
    requires !AllSpace(Split(content, BatchMarker)[0])
    ensures Batches(content) != []
    ensures Batches(content)[0] == Strip(Split(content, BatchMarker)[0])
  {
    var idx := NonBlankPositions(Split(content, BatchMarker));
    BatchesInOrder(content);
    assert 0 in idx;
    assert idx[0] == 0;
  }

  /** A log without any marker is a single batch unless it is blank. */
  lemma UnmarkedLogIsOneBatch(content: string)
    requires Free(content, BatchMarker)
    ensures Batches(content) == if AllSpace(content) then [] else [Strip(content)]
  {
    assert IndexOf(content, BatchMarker).None?;
    assert Split(content, BatchMarker) == [content];
    var ss := StripAll([content]);
    assert ss == [Strip(content)];
    assert Filter(ss, NonBlank) == (if NonBlank(ss[0]) then [ss[0]] else []) + Filter(ss[1..], NonBlank);
  }

  /** `s` concatenated, in order. */
  function Flatten<T>(xss: seq<seq<T>>): seq<T>
  {
    if xss == [] then [] else Flatten(xss[..|xss| - 1]) + xss[|xss| - 1]
  }

  /** The final element. */
  function Last<T>(xs: seq<T>): T
    requires xs != []
  {
    xs[|xs| - 1]
  }

  /** The reported numbers of each batch. */
  function BatchTokens(batches: seq<string>): (ts: seq<seq<string>>)
    ensures |ts| == |batches|
    ensures forall k :: 0 <= k < |ts| ==> ts[k] == ReportedTokens(batches[k])
  {
    seq(|batches|, k requires 0 <= k < |batches| => ReportedTokens(batches[k]))
  }

  /** Every number reported anywhere in the log, batch by batch. */
  function LogTokens(content: string): seq<string>
  {
    Flatten(BatchTokens(Batches(content)))
  }

  /** The numbers reported in the last batch (none when there is none). */
  function LastBatchTokens(content: string): seq<string>
  {
    var ts := BatchTokens(Batches(content));
    if ts == [] then [] else ts[|ts| - 1]
  }

  /** The numbers of the whole log end with those of the last batch, and
      those are the numbers reported in the last non-blank piece. */
  lemma LastBatchEndsLog(content: string) returns (i: nat)
    requires Batches(content) != []
    ensures var parts := Split(content, BatchMarker);
            var all := LogTokens(content);
            var last := LastBatchTokens(content);
            && i < |parts| && !AllSpace(parts[i])
            && (forall j :: i < j < |parts| ==> AllSpace(parts[j]))
            && last == ReportedTokens(Strip(parts[i]))
            && |last| <= |all| && all[|all| - |last|..] == last
  {
    i := LastBatchIsLastPiece(content);
    var tss := BatchTokens(Batches(content));
    var n := |tss|;
    assert Flatten(tss) == Flatten(tss[..n - 1]) + tss[n - 1];
  }

  /** Every element of a flattened sequence of tokens is a token. */
  lemma {:induction false} FlattenTokens(tss: seq<seq<string>>)
    requires forall k, j :: 0 <= k < |tss| && 0 <= j < |tss[k]| ==> IsToken(tss[k][j])
    ensures forall j :: 0 <= j < |Flatten(tss)| ==> IsToken(Flatten(tss)[j])
  {
    if tss != [] {
      FlattenTokens(tss[..|tss| - 1]);
    }
  }

  lemma AllLogTokens(content: string)
    ensures forall j :: 0 <= j < |LogTokens(content)| ==> IsToken(LogTokens(content)[j])
  {
    FlattenTokens(BatchTokens(Batches(content)));
  }

  /** `[float(r) for r in tokens]`: nothing when any token is malformed. */
  function TokenValues(tokens: seq<string>): (r: Option<seq<real>>)
    requires forall k :: 0 <= k < |tokens| ==> IsToken(tokens[k])
    ensures r.Some? <==> forall k :: 0 <= k < |tokens| ==> IsDecimal(tokens[k])
    ensures r.Some? ==> |r.value| == |tokens|
    ensures r.Some? ==> forall k :: 0 <= k < |tokens| ==> Some(r.value[k]) == DecimalValue(tokens[k])
  {
    AllPresent(Conversions(tokens))
  }

  /** Each token converted on its own. */
  function Conversions(tokens: seq<string>): (cs: seq<Option<real>>)
    requires forall k :: 0 <= k < |tokens| ==> IsToken(tokens[k])
    ensures |cs| == |tokens|
    ensures forall k :: 0 <= k < |tokens| ==> cs[k] == DecimalValue(tokens[k])
  {
    seq(|tokens|, k requires 0 <= k < |tokens| => DecimalValue(tokens[k]))
  }

  /** The values of a sequence of options when none is missing. */
  function AllPresent(os: seq<Option<real>>): (r: Option<seq<real>>)
    ensures r.Some? <==> forall k :: 0 <= k < |os| ==> os[k].Some?
    ensures r.Some? ==> |r.value| == |os| && forall k :: 0 <= k < |os| ==> os[k] == Some(r.value[k])
  {
    if os == [] then Some([])
    else
      assert forall k :: 1 <= k < |os| ==> os[k] == os[1..][k - 1];
      match os[0]
      case None => None
      case Some(x) =>
        match AllPresent(os[1..])
        case None => None
        case Some(xs) => Some([x] + xs)
  }

  /** Converting is done token by token, so it distributes over `+`. */
  lemma TokenValuesAppend(a: seq<string>, b: seq<string>)
    requires forall k :: 0 <= k < |a| ==> IsToken(a[k])
    requires forall k :: 0 <= k < |b| ==> IsToken(b[k])
    requires TokenValues(a + b).Some?
    ensures TokenValues(a).Some? && TokenValues(b).Some?
    ensures TokenValues(a + b).value == TokenValues(a).value + TokenValues(b).value
  {
    ConversionsAppend(a, b);
    AllPresentAppend(Conversions(a), Conversions(b));
  }

  /** Conversion distributes over `+`. */
  lemma ConversionsAppend(a: seq<string>, b: seq<string>)
    requires forall k :: 0 <= k < |a| ==> IsToken(a[k])
    requires forall k :: 0 <= k < |b| ==> IsToken(b[k])
    ensures forall k :: 0 <= k < |a + b| ==> IsToken((a + b)[k])
    ensures Conversions(a + b) == Conversions(a) + Conversions(b)
  {
    var ab := a + b;
    assert forall k :: 0 <= k < |a| ==> ab[k] == a[k];
    assert forall k :: 0 <= k < |b| ==> ab[|a| + k] == b[k];
  }

  /** No value is missing from `a + b` exactly when none is missing from
      either part, and then the values are those of the parts. */
  lemma AllPresentAppend(a: seq<Option<real>>, b: seq<Option<real>>)
    requires AllPresent(a + b).Some?
    ensures AllPresent(a).Some? && AllPresent(b).Some?
    ensures AllPresent(a + b).value == AllPresent(a).value + AllPresent(b).value
  {
    var ab := a + b;
    assert forall k :: 0 <= k < |a| ==> ab[k] == a[k];
    assert forall k :: 0 <= k < |b| ==> ab[|a| + k] == b[k];
    var l := AllPresent(ab).value;
    var r := AllPresent(a).value + AllPresent(b).value;
    forall k | 0 <= k < |l|
      ensures l[k] == r[k]
    {
      if k < |a| {
        assert Some(l[k]) == ab[k] == a[k] == Some(AllPresent(a).value[k]);
      } else {
        assert Some(l[k]) == ab[k] == b[k - |a|] == Some(AllPresent(b).value[k - |a|]);
      }
    }
  }

  /** `min(xs)`. */
  function MinOf(xs: seq<real>): (m: real)
    requires xs != []
    ensures m in xs
    ensures forall k :: 0 <= k < |xs| ==> m <= xs[k]
  {
    if |xs| == 1 then xs[0]
    else
      var m := MinOf(xs[1..]);
      assert forall k :: 1 <= k < |xs| ==> xs[k] == xs[1..][k - 1];
      if xs[0] <= m then xs[0] else m
  }

  /** `max(xs)`. */
  function MaxOf(xs: seq<real>): (m: real)
    requires xs != []
    ensures m in xs
    ensures forall k :: 0 <= k < |xs| ==> xs[k] <= m
  {
    if |xs| == 1 then xs[0]
    else
      var m := MaxOf(xs[1..]);
      assert forall k :: 1 <= k < |xs| ==> xs[k] == xs[1..][k - 1];
      if xs[0] >= m then xs[0] else m
  }

  /** `sum(xs)`, exactly. */
  function Sum(xs: seq<real>): real
  {
    if xs == [] then 0.0 else xs[0] + Sum(xs[1..])
  }

  /** `sum(xs) / len(xs)` (see `MeanBounds` and `MeanTimesLength`). */
  function Mean(xs: seq<real>): real
    requires xs != []
  {
    Sum(xs) / |xs| as real
  }

  /** The mean lies between the minimum and the maximum. */
  lemma MeanBounds(xs: seq<real>)
    requires xs != []
    ensures MinOf(xs) <= Mean(xs) <= MaxOf(xs)
  {
    SumRepeatBounds(xs, MinOf(xs), MaxOf(xs));
    MeanBetween(Sum(xs), |xs|, MinOf(xs), MaxOf(xs));
  }

  /** The mean times the count is the sum: added up `|xs|` times, the
      mean gives the sum back. */
  lemma MeanTimesLength(xs: seq<real>)
    requires xs != []
    ensures Mean(xs) * |xs| as real == Sum(xs)
    ensures Repeat(|xs|, Mean(xs)) == Sum(xs)
  {
    QuotientTimes(Sum(xs), |xs| as real, Mean(xs));
    RepeatIsProduct(|xs|, Mean(xs));
  }

  /** A quotient by a positive `n`, multiplied back by `n`, is the total. */
  lemma QuotientTimes(total: real, n: real, m: real)
    requires n > 0.0 && m == total / n
    ensures m * n == total
  {
  }

  /** `x` added up `n` times. */
  function Repeat(n: nat, x: real): real
  {
    if n == 0 then 0.0 else Repeat(n - 1, x) + x
  }

  /** Repeated addition is multiplication. */
  lemma {:induction false} RepeatIsProduct(n: nat, x: real)
    ensures Repeat(n, x) == n as real * x
  {
    if n > 0 {
      RepeatIsProduct(n - 1, x);
      assert n as real * x == (n - 1) as real * x + x;
    }
  }

  /** Element bounds bound the sum by repeated addition. */
  lemma {:induction false} SumRepeatBounds(xs: seq<real>, lo: real, hi: real)
    requires forall k :: 0 <= k < |xs| ==> lo <= xs[k] <= hi
    ensures Repeat(|xs|, lo) <= Sum(xs) <= Repeat(|xs|, hi)
  {
    if xs != [] {
      var rest := xs[1..];
      assert forall k :: 0 <= k < |rest| ==> rest[k] == xs[k + 1];
      SumRepeatBounds(rest, lo, hi);
      assert lo <= xs[0] <= hi;
    }
  }

  /** An average of values between `lo` and `hi` is between them too. */
  lemma MeanBetween(total: real, n: nat, lo: real, hi: real)
    requires n > 0
    requires Repeat(n, lo) <= total <= Repeat(n, hi)
    ensures lo <= total / n as real <= hi
  {
    RepeatIsProduct(n, lo);
    RepeatIsProduct(n, hi);
    QuotientBetween(total, n as real, lo, hi);
  }

  /** Dividing by a positive `n` keeps `n * lo <= total <= n * hi` between
      `lo` and `hi`. */
  lemma QuotientBetween(total: real, n: real, lo: real, hi: real)
    requires n > 0.0
    requires n * lo <= total <= n * hi
    ensures lo <= total / n <= hi
  {
    var m := total / n;
    assert m * n == total;
    assert (m - lo) * n >= 0.0;
    assert (hi - m) * n >= 0.0;
  }

  /** What `parse_results_file` returns for a log with at least one
      reported number: all numbers, the last batch's numbers, and their
      reductions. */
  datatype RunRecord = RunRecord(
    allRmse: seq<real>,
    lastBatchRmse: seq<real>,
    bestRmse: real,
    lastRmse: real,
    meanRmse: real,
    lastBatchMean: Option<real>,
    lastBatchBest: Option<real>,
    numRuns: nat)

  /** The relations the record's fields keep among themselves. */
  ghost predicate ConsistentRecord(r: RunRecord)
  {
    ConsistentOverall(r) && ConsistentLastBatch(r)
  }

  /** The relations among the fields computed from all numbers. */
  ghost predicate ConsistentOverall(r: RunRecord)
  {
    var all := r.allRmse;
    && all != []
    && r.numRuns == |all|
    && r.lastRmse == all[|all| - 1]
    && r.bestRmse in all
    && (forall k :: 0 <= k < |all| ==> r.bestRmse <= all[k])
    && Repeat(|all|, r.meanRmse) == Sum(all)
    && r.bestRmse <= r.meanRmse <= MaxOf(all)
  }

  /** The relations of the last batch's fields to each other and to all
      numbers. */
  ghost predicate ConsistentLastBatch(r: RunRecord)
  {
    var all := r.allRmse;
    var lb := r.lastBatchRmse;
    && EndsWith(all, lb)
    && (r.lastBatchBest.None? <==> lb == [])
    && (r.lastBatchMean.None? <==> lb == [])
    && (r.lastBatchBest.Some? ==>
          && r.lastBatchBest.value in lb
          && (forall k :: 0 <= k < |lb| ==> r.lastBatchBest.value <= lb[k])
          && r.bestRmse <= r.lastBatchBest.value)
    && (r.lastBatchMean.Some? ==>
          && Repeat(|lb|, r.lastBatchMean.value) == Sum(lb)
          && r.lastBatchBest.Some? && r.lastBatchBest.value <= r.lastBatchMean.value <= MaxOf(lb))
  }

  /** `all` ends with `tail`. */
  predicate EndsWith(all: seq<real>, tail: seq<real>)
  {
    |tail| <= |all| && all[|all| - |tail|..] == tail
  }

  /** A tail's minimum is no smaller than the whole's. */
  lemma SuffixMinAbove(all: seq<real>, tail: seq<real>)
    requires all != [] && EndsWith(all, tail)
    ensures tail != [] ==> MinOf(all) <= MinOf(tail)
  {
    if tail != [] {
      var m := MinOf(tail);
      var k :| 0 <= k < |tail| && tail[k] == m;
      assert all[|all| - |tail| + k] == m;
    }
  }

  /** The record built from all numbers and the last batch's numbers. */
  function MakeRecord(all: seq<real>, lastBatch: seq<real>): (r: RunRecord)
    requires all != []
    requires EndsWith(all, lastBatch)
    ensures ConsistentRecord(r)
    ensures r.allRmse == all && r.lastBatchRmse == lastBatch
  {
    var best := MinOf(all);
    var mean := Mean(all);
    var lbBest := if lastBatch == [] then None else Some(MinOf(lastBatch));
    var lbMean := if lastBatch == [] then None else Some(Mean(lastBatch));
    var r := RunRecord(all, lastBatch, best, all[|all| - 1], mean, lbMean, lbBest, |all|);
    OverallFacts(r);
    LastBatchFacts(r);
    r
  }

  /** Minimum and mean of all numbers, with the count and last number,
      keep the overall relations. */
  lemma OverallFacts(r: RunRecord)
    requires r.allRmse != [] && r.numRuns == |r.allRmse| && r.lastRmse == Last(r.allRmse)
    requires r.bestRmse == MinOf(r.allRmse) && r.meanRmse == Mean(r.allRmse)
    ensures ConsistentOverall(r)
  {
    MeanBounds(r.allRmse);
    MeanTimesLength(r.allRmse);
    assert MaxOf(r.allRmse) in r.allRmse;
  }

  /** Minimum and mean of a suffix of all numbers keep the last batch's
      relations. */
  lemma LastBatchFacts(r: RunRecord)
    requires var all := r.allRmse; var lb := r.lastBatchRmse;
             && all != [] && EndsWith(all, lb)
             && r.bestRmse == MinOf(all)
             && (lb == [] ==> r.lastBatchBest.None? && r.lastBatchMean.None?)
             && (lb != [] ==> r.lastBatchBest == Some(MinOf(lb)) && r.lastBatchMean == Some(Mean(lb)))
    ensures ConsistentLastBatch(r)
  {
    SuffixMinAbove(r.allRmse, r.lastBatchRmse);
    if r.lastBatchRmse != [] {
      MeanBounds(r.lastBatchRmse);
      MeanTimesLength(r.lastBatchRmse);
    }
  }

  /** The values of the last group of tokens end the values of all the
      tokens. */
  lemma LastGroupIsSuffix(tss: seq<seq<string>>)
    requires tss != []
    requires forall j :: 0 <= j < |Flatten(tss)| ==> IsToken(Flatten(tss)[j])
    requires TokenValues(Flatten(tss)).Some?
    ensures forall k :: 0 <= k < |Last(tss)| ==> IsToken(Last(tss)[k])
    ensures TokenValues(Last(tss)).Some?
    ensures var all := TokenValues(Flatten(tss)).value;
            var lb := TokenValues(Last(tss)).value;
            EndsWith(all, lb)
  {
    var n := |tss|;
    var earlier := Flatten(tss[..n - 1]);
    var last := tss[n - 1];
    assert Flatten(tss) == earlier + last;
    TokensOfParts(earlier, last);
    TokenValuesAppend(earlier, last);
    AppendEndsWith(TokenValues(earlier).value, TokenValues(last).value);
  }

  /** The parts of a sequence of tokens are sequences of tokens. */
  lemma TokensOfParts(a: seq<string>, b: seq<string>)
    requires forall j :: 0 <= j < |a + b| ==> IsToken((a + b)[j])
    ensures forall k :: 0 <= k < |a| ==> IsToken(a[k])
    ensures forall k :: 0 <= k < |b| ==> IsToken(b[k])
  {
    forall k | 0 <= k < |a|
      ensures IsToken(a[k])
    {
      assert a[k] == (a + b)[k];
    }
    forall k | 0 <= k < |b|
      ensures IsToken(b[k])
    {
      assert b[k] == (a + b)[|a| + k];
    }
  }

  /** `x + y` ends with `y`. */
  lemma AppendEndsWith(x: seq<real>, y: seq<real>)
    ensures EndsWith(x + y, y)
  {
  }

  /** The last batch's numbers end the log's numbers, so once all of them
      convert, the last batch's values are the tail of all values. */
  lemma LastBatchIsSuffix(content: string)
    requires forall k :: 0 <= k < |LogTokens(content)| ==> IsToken(LogTokens(content)[k])
    requires TokenValues(LogTokens(content)).Some?
    ensures forall k :: 0 <= k < |LastBatchTokens(content)| ==> IsToken(LastBatchTokens(content)[k])
    ensures TokenValues(LastBatchTokens(content)).Some?
    ensures var all := TokenValues(LogTokens(content)).value;
            var lb := TokenValues(LastBatchTokens(content)).value;
            EndsWith(all, lb)
  {
    var perBatch := BatchTokens(Batches(content));
    if perBatch != [] {
      LastGroupIsSuffix(perBatch);
    }
  }

  /** Why parsing a results log can fail: `float()` rejected a number. */
  datatype ParseError = MalformedNumber

  /** The text-to-record part of `parse_results_file`: nothing when the
      log reports no number, a failure when a reported number is not a
      valid decimal, and otherwise the run record. */
  function ParseResultsText(content: string): (r: Result<Option<RunRecord>, ParseError>)
    ensures r.Failure? <==> exists k :: 0 <= k < |LogTokens(content)| && !IsDecimal(LogTokens(content)[k])
    ensures r == Success(None) <==> LogTokens(content) == []
    ensures r.Success? && r.value.Some? ==>
              var rec := r.value.value;
              var tokens := LogTokens(content);
              var last := LastBatchTokens(content);
              && ConsistentRecord(rec)
              && |rec.allRmse| == |tokens|
              && (forall k :: 0 <= k < |tokens| ==> Some(rec.allRmse[k]) == DecimalValue(tokens[k]))
              && |rec.lastBatchRmse| == |last|
              && (forall k :: 0 <= k < |last| ==> IsToken(last[k]) && Some(rec.lastBatchRmse[k]) == DecimalValue(last[k]))
  {
    AllLogTokens(content);
    LastBatchAreTokens(content);
    assert TokenValues(LogTokens(content)).Some? ==> EndOfValues(LogTokens(content), LastBatchTokens(content)) by {
      if TokenValues(LogTokens(content)).Some? {
        LastBatchIsSuffix(content);
      }
    }
    RecordOfTokens(LogTokens(content), LastBatchTokens(content))
  }

  /** The numbers of the last batch are number tokens. */
  lemma LastBatchAreTokens(content: string)
    ensures forall k :: 0 <= k < |LastBatchTokens(content)| ==> IsToken(LastBatchTokens(content)[k])
  {
    var batches := Batches(content);
    var ts := BatchTokens(batches);
    if ts != [] {
      assert ts[|ts| - 1] == ReportedTokens(batches[|ts| - 1]);
    }
  }

  /** Once all tokens convert, the last batch's tokens convert too and
      their values end the values of all tokens. */
  ghost predicate EndOfValues(tokens: seq<string>, last: seq<string>)
    requires forall k :: 0 <= k < |tokens| ==> IsToken(tokens[k])
    requires forall k :: 0 <= k < |last| ==> IsToken(last[k])
  {
    TokenValues(tokens).Some? ==>
      TokenValues(last).Some? && EndsWith(TokenValues(tokens).value, TokenValues(last).value)
  }

  /** The record of all tokens and the last batch's tokens: nothing when
      there are no tokens, a failure when one is malformed. */
  function RecordOfTokens(tokens: seq<string>, last: seq<string>): (r: Result<Option<RunRecord>, ParseError>)
    requires forall k :: 0 <= k < |tokens| ==> IsToken(tokens[k])
    requires forall k :: 0 <= k < |last| ==> IsToken(last[k])
    requires EndOfValues(tokens, last)
    ensures r.Failure? <==> exists k :: 0 <= k < |tokens| && !IsDecimal(tokens[k])
    ensures r == Success(None) <==> tokens == []
    ensures r.Success? && r.value.Some? ==>
              var rec := r.value.value;
              && ConsistentRecord(rec)
              && |rec.allRmse| == |tokens|
              && (forall k :: 0 <= k < |tokens| ==> Some(rec.allRmse[k]) == DecimalValue(tokens[k]))
              && |rec.lastBatchRmse| == |last|
              && (forall k :: 0 <= k < |last| ==> Some(rec.lastBatchRmse[k]) == DecimalValue(last[k]))
  {
    match TokenValues(tokens)
    case None => Failure(MalformedNumber)
    case Some(all) =>
      if all == [] then Success(None)
      else Success(Some(MakeRecord(all, TokenValues(last).value)))
  }
}

=== FILE: results_table.dfy ===
/** The table side of the results-table generator: folding the scanned
    run directories into `results[sequence][variant]`, pivoting that into a
    sequence × variant table of one metric with outliers masked, renaming
    and filtering its columns, and classifying each row's cells as best or
    worst for the HTML export. */
module ResultsTable {
  import opened Options
  import opened StringOrder
  import opened ResultsLog
  import opened Text
  import opened Filters

  // ---------------------------------------------------------------------
  // Scanning
  // ---------------------------------------------------------------------

  /** `results[sequence][variant]`: the record of each run directory, or
      `None` for a directory whose log gave no record. */
  type Results = map<string, map<string, Option<RunRecord>>>

  /** A scanned run directory: its name and what its log parsed to. */
  datatype RunDir = RunDir(name: string, record: Option<RunRecord>)

  /** A scanned run directory with its name already parsed. */
  datatype Entry = Entry(key: Option<DirName>, record: Option<RunRecord>)

  /** Entry `i` is keyed by sequence `s` and variant `v`. */
  ghost predicate KeyAt(es: seq<Entry>, i: int, s: string, v: string)
  {
    0 <= i < |es| && es[i].key == Some(DirName(s, v))
  }

  /** Entry `i` is the last one keyed by `s` and `v`. */
  ghost predicate LastKeyAt(es: seq<Entry>, i: int, s: string, v: string)
  {
    KeyAt(es, i, s, v) && forall j :: i < j < |es| ==> !KeyAt(es, j, s, v)
  }

  /** Every sequence of `r` has at least one variant. */
  ghost predicate NoEmptyRow(r: Results)
  {
    forall s :: s in r ==> |r[s]| > 0
  }

  /** `results[s][v] = rec`, creating the row of `s` when it is new. */
  function Insert(acc: Results, s: string, v: string, rec: Option<RunRecord>): (r: Results)
    ensures s in r && v in r[s] && r[s][v] == rec
    ensures forall s' :: s' in r <==> s' in acc || s' == s
    ensures forall s', v' :: s' in r && v' in r[s'] <==> (s' in acc && v' in acc[s']) || (s' == s && v' == v)
    ensures forall s', v' :: s' in acc && v' in acc[s'] && (s' != s || v' != v) ==> r[s'][v'] == acc[s'][v']
    ensures NoEmptyRow(acc) ==> NoEmptyRow(r)
  {
    var row := if s in acc then acc[s] else map[];
    acc[s := row[v := rec]]
  }

  /** The loop body of `scan_results` over already-parsed names: entries
      without a key are skipped, and a later entry with the same key
      overwrites an earlier one (see `FoldHasKey`, `FoldKeyFrom` and
      `FoldKeepsLast`). */
  function Fold(es: seq<Entry>): (r: Results)
    ensures NoEmptyRow(r)
    decreases |es|
  {
    if es == [] then map[]
    else
      var acc := Fold(es[..|es| - 1]);
      match Last(es).key
      case None => acc
      case Some(dn) => Insert(acc, dn.sequence, dn.variant, Last(es).record)
  }

  /** Every keyed entry leaves its key in the result. */
  lemma {:induction false} FoldHasKey(es: seq<Entry>, i: int, s: string, v: string)
    requires KeyAt(es, i, s, v)
    ensures s in Fold(es) && v in Fold(es)[s]
    decreases |es|
  {
    var n := |es|;
    if i < n - 1 {
      assert KeyAt(es[..n - 1], i, s, v);
      FoldHasKey(es[..n - 1], i, s, v);
    }
  }

  /** Every key of the result comes from some entry. */
  lemma {:induction false} FoldKeyFrom(es: seq<Entry>, s: string, v: string)
    requires s in Fold(es) && v in Fold(es)[s]
    ensures exists i :: KeyAt(es, i, s, v)
    decreases |es|
  {
    var n := |es|;
    var earlier := es[..n - 1];
    if Last(es).key != Some(DirName(s, v)) {
      FoldKeyFrom(earlier, s, v);
      var i :| KeyAt(earlier, i, s, v);
      assert KeyAt(es, i, s, v);
    } else {
      assert KeyAt(es, n - 1, s, v);
    }
  }

  /** The record kept for a key is the one of its last entry. */
  lemma {:induction false} FoldKeepsLast(es: seq<Entry>, i: int, s: string, v: string)
    requires LastKeyAt(es, i, s, v)
    ensures s in Fold(es) && v in Fold(es)[s] && Fold(es)[s][v] == es[i].record
    decreases |es|
  {
    var n := |es|;
    var earlier := es[..n - 1];
    if i < n - 1 {
      assert !KeyAt(es, n - 1, s, v);
      forall j | i < j < n - 1
        ensures !KeyAt(earlier, j, s, v)
      {
        assert earlier[j] == es[j];
        assert !KeyAt(es, j, s, v);
      }
      assert KeyAt(earlier, i, s, v);
      FoldKeepsLast(earlier, i, s, v);
      FoldOtherKey(es, s, v);
    }
  }

  /** A last entry with another key leaves the record of `s`, `v` alone. */
  lemma FoldOtherKey(es: seq<Entry>, s: string, v: string)
    requires es != [] && Last(es).key != Some(DirName(s, v))
    requires var acc := Fold(es[..|es| - 1]); s in acc && v in acc[s]
    ensures s in Fold(es) && v in Fold(es)[s] && Fold(es)[s][v] == Fold(es[..|es| - 1])[s][v]
  {
  }

  /** The directories with their names parsed. */
  function Entries(dirs: seq<RunDir>): (es: seq<Entry>)
    ensures |es| == |dirs|
    ensures forall i :: 0 <= i < |dirs| ==> es[i] == Entry(ParseDirectoryName(dirs[i].name), dirs[i].record)
  {
    seq(|dirs|, i requires 0 <= i < |dirs| => Entry(ParseDirectoryName(dirs[i].name), dirs[i].record))
  }

  /** Directory `i` parses to sequence `s` and variant `v`. */
  ghost predicate ParsesTo(dirs: seq<RunDir>, i: int, s: string, v: string)
  {
    0 <= i < |dirs| && ParseDirectoryName(dirs[i].name) == Some(DirName(s, v))
  }

  /** Directory `i` is the last one that parses to `s` and `v`. */
  ghost predicate IsLastFor(dirs: seq<RunDir>, i: int, s: string, v: string)
  {
    ParsesTo(dirs, i, s, v) && forall j :: i < j < |dirs| ==> !ParsesTo(dirs, j, s, v)
  }

  /** `scan_results` over the directories in the order given: a sequence
      appears with a variant exactly when some directory name parses to
      them, and the record kept is the one of the last such directory. */
  function Scan(dirs: seq<RunDir>): (r: Results)
    ensures NoEmptyRow(r)
    ensures forall s, v :: s in r && v in r[s] ==> exists i :: ParsesTo(dirs, i, s, v)
    ensures forall i, s, v :: ParsesTo(dirs, i, s, v) ==> s in r && v in r[s]
    ensures forall i, s, v :: IsLastFor(dirs, i, s, v) ==> s in r && v in r[s] && r[s][v] == dirs[i].record
  {
    var es := Entries(dirs);
    assert forall i, s, v :: KeyAt(es, i, s, v) <==> ParsesTo(dirs, i, s, v);
    assert forall i, s, v :: LastKeyAt(es, i, s, v) <==> IsLastFor(dirs, i, s, v);
    var r := Fold(es);
    forall s, v | s in r && v in r[s]
      ensures exists i :: KeyAt(es, i, s, v)
    {
      FoldKeyFrom(es, s, v);
    }
    forall i, s, v | KeyAt(es, i, s, v)
      ensures s in r && v in r[s]
    {
      FoldHasKey(es, i, s, v);
    }
    forall i, s, v | LastKeyAt(es, i, s, v)
      ensures s in r && v in r[s] && r[s][v] == es[i].record
    {
      FoldKeepsLast(es, i, s, v);
    }
    r
  }

  /** A run directory as found on disk: its name and the text of its
      `results.txt`, or `None` when there is no such file. */
  datatype LogDir = LogDir(name: string, log: Option<string>)

  /** Reading the directory's log: no file, or a log that reports no
      number, gives no record; a malformed number fails. */
  function ReadLog(d: LogDir): (r: Result<Option<RunRecord>, ParseError>)
    ensures r == Success(None) <==> d.log.None? || LogTokens(d.log.value) == []
    ensures r.Failure? <==>
              d.log.Some? && exists k :: 0 <= k < |LogTokens(d.log.value)| && !IsDecimal(LogTokens(d.log.value)[k])
    ensures r.Success? && r.value.Some? ==> d.log.Some? && ConsistentRecord(r.value.value)
  {
    match d.log
    case None => Success(None)
    case Some(content) => ParseResultsText(content)
  }

  /** The directory's log is read (its name parses) and has a malformed
      number. */
  ghost predicate BadLog(d: LogDir)
  {
    ParseDirectoryName(d.name).Some? && ReadLog(d).Failure?
  }

  /** The logs of the directories whose names parse, read in order; the
      first malformed number aborts. Directories whose names do not parse
      are never read and carry no record. */
  function ReadLogs(ds: seq<LogDir>): (r: Result<seq<RunDir>, ParseError>)
    ensures r.Failure? <==> exists i :: 0 <= i < |ds| && BadLog(ds[i])
    ensures r.Success? ==> |r.value| == |ds|
    ensures r.Success? ==> forall i :: 0 <= i < |ds| ==>
              && r.value[i].name == ds[i].name
              && (ParseDirectoryName(ds[i].name).Some? ==> Success(r.value[i].record) == ReadLog(ds[i]))
  {
    var names := seq(|ds|, i requires 0 <= i < |ds| => ds[i].name);
    var outcomes := seq(|ds|, i requires 0 <= i < |ds| => ReadDir(ds[i]));
    forall i | 0 <= i < |ds|
      ensures outcomes[i].Failure? <==> BadLog(ds[i])
    {
      assert outcomes[i] == ReadDir(ds[i]);
    }
    Collect(names, outcomes)
  }

  /** What scanning one directory reads: nothing for a name that does not
      parse, otherwise its log. */
  function ReadDir(d: LogDir): (r: Result<Option<RunRecord>, ParseError>)
    ensures r.Failure? <==> BadLog(d)
  {
    if ParseDirectoryName(d.name).None? then Success(None) else ReadLog(d)
  }

  /** The directories' outcomes in order: the first failure, or every
      record with its directory's name. */
  function Collect(names: seq<string>, outcomes: seq<Result<Option<RunRecord>, ParseError>>): (r: Result<seq<RunDir>, ParseError>)
    requires |names| == |outcomes|
    ensures r.Failure? <==> exists i :: 0 <= i < |outcomes| && outcomes[i].Failure?
    ensures r.Success? ==> |r.value| == |outcomes|
    ensures r.Success? ==> forall i :: 0 <= i < |outcomes| ==>
              r.value[i].name == names[i] && Success(r.value[i].record) == outcomes[i]
  {
    if outcomes == [] then Success([])
    else
      assert forall i :: 1 <= i < |outcomes| ==> outcomes[i] == outcomes[1..][i - 1];
      match outcomes[0]
      case Failure(e) => Failure(e)
      case Success(rec) =>
        match Collect(names[1..], outcomes[1..])
        case Failure(e) => Failure(e)
        case Success(rest) =>
          assert outcomes[0] == Success(rec);
          Success([RunDir(names[0], rec)] + rest)
  }


  /** Directory `i` is named for sequence `s` and variant `v`. */
  ghost predicate NamedAt(ds: seq<LogDir>, i: int, s: string, v: string)
  {
    0 <= i < |ds| && ParseDirectoryName(ds[i].name) == Some(DirName(s, v))
  }

  /** Directory `i` is the last one named for `s` and `v`. */
  ghost predicate LastNamedAt(ds: seq<LogDir>, i: int, s: string, v: string)
  {
    NamedAt(ds, i, s, v) && forall j :: i < j < |ds| ==> !NamedAt(ds, j, s, v)
  }

  /** `scan_results(base_dir)` over the directories in the order given:
      the scan aborts on the first malformed log it reads; otherwise a
      sequence appears with a variant exactly when some directory is named
      for them, and holds what the log of the last such directory gave. */
  function ScanLogs(ds: seq<LogDir>): (r: Result<Results, ParseError>)
    ensures r.Failure? <==> exists i :: 0 <= i < |ds| && BadLog(ds[i])
    ensures r.Success? ==> NoEmptyRow(r.value)
    ensures r.Success? ==> forall s, v :: s in r.value && v in r.value[s] ==> exists i :: NamedAt(ds, i, s, v)
    ensures r.Success? ==> forall i, s, v :: NamedAt(ds, i, s, v) ==> s in r.value && v in r.value[s]
    ensures r.Success? ==> forall i, s, v :: LastNamedAt(ds, i, s, v) ==>
              s in r.value && v in r.value[s] && Success(r.value[s][v]) == ReadLog(ds[i])
  {
    match ReadLogs(ds)
    case Failure(e) => Failure(e)
    case Success(dirs) =>
      ScannedLogs(ds, dirs);
      Success(Scan(dirs))
  }

  /** The directories as read carry the names of the directories on disk
      and, where the name parses, what their logs gave. */
  lemma ScannedLogs(ds: seq<LogDir>, dirs: seq<RunDir>)
    requires |dirs| == |ds|
    requires forall i :: 0 <= i < |ds| ==>
               && dirs[i].name == ds[i].name
               && (ParseDirectoryName(ds[i].name).Some? ==> Success(dirs[i].record) == ReadLog(ds[i]))
    ensures var r := Scan(dirs);
            && (forall s, v :: s in r && v in r[s] ==> exists i :: NamedAt(ds, i, s, v))
            && (forall i, s, v :: NamedAt(ds, i, s, v) ==> s in r && v in r[s])
            && (forall i, s, v :: LastNamedAt(ds, i, s, v) ==> s in r && v in r[s] && Success(r[s][v]) == ReadLog(ds[i]))
  {
    var r := Scan(dirs);
    assert forall i, s, v :: NamedAt(ds, i, s, v) <==> ParsesTo(dirs, i, s, v);
    forall s, v | s in r && v in r[s]
      ensures exists i :: NamedAt(ds, i, s, v)
    {
      var i :| ParsesTo(dirs, i, s, v);
      assert NamedAt(ds, i, s, v);
    }
    forall i, s, v | LastNamedAt(ds, i, s, v)
      ensures s in r && v in r[s] && Success(r[s][v]) == ReadLog(ds[i])
    {
      assert IsLastFor(dirs, i, s, v);
    }
  }

  /** `P2001_x` and `P2001x` name the same run: the later directory wins. */
  lemma LaterDirectoryWins(s: string, first: Option<RunRecord>, second: Option<RunRecord>)
    requires Dashboard.IsSequenceCode(s)
    ensures var r := Scan([RunDir(s + "_x", first), RunDir(s + "x", second)]);
            s in r && "x" in r[s] && r[s]["x"] == second
  {
    ParseCodeAndTail(s, "_x");
    ParseCodeAndTail(s, "x");
    var dirs := [RunDir(s + "_x", first), RunDir(s + "x", second)];
    assert IsLastFor(dirs, 1, s, "x");
  }

  // ---------------------------------------------------------------------
  // Pivoting
  // ---------------------------------------------------------------------

  /** The metric a table shows. `AllBest` is named in the documentation
      but is not a key of a run record, so every cell of it is missing. */
  datatype Metric = BestRmse | LastRmse | MeanRmse | LastBatchMean | LastBatchBest | AllBest

  /** `data.get(metric)`. */
  function MetricValue(rec: RunRecord, m: Metric): Option<real>
  {
    match m
    case BestRmse => Some(rec.bestRmse)
    case LastRmse => Some(rec.lastRmse)
    case MeanRmse => Some(rec.meanRmse)
    case LastBatchMean => rec.lastBatchMean
    case LastBatchBest => rec.lastBatchBest
    case AllBest => None
  }

  /** For a consistent record, a metric is missing exactly when it is
      `all_best` or a last-batch metric of an empty last batch; a present
      metric is never below the best RMSE. */
  lemma MetricPresence(rec: RunRecord, m: Metric)
    requires ConsistentRecord(rec)
    ensures MetricValue(rec, m).None? <==>
              m == AllBest || ((m == LastBatchMean || m == LastBatchBest) && rec.lastBatchRmse == [])
    ensures MetricValue(rec, m).Some? ==> rec.bestRmse <= MetricValue(rec, m).value
  {
  }

  /** A column of the table: its label and one cell per sequence. */
  datatype Column = Column(name: string, cells: seq<Option<real>>)

  /** A table indexed by sequence code, with labelled columns. */
  datatype Table = Table(sequences: seq<string>, columns: seq<Column>)

  /** Every column has one cell per sequence. */
  ghost predicate WellShaped(t: Table)
  {
    forall j :: 0 <= j < |t.columns| ==> |t.columns[j].cells| == |t.sequences|
  }

  /** The column labels, in order. */
  function Labels(cols: seq<Column>): (ls: seq<string>)
    ensures |ls| == |cols|
    ensures forall j :: 0 <= j < |cols| ==> ls[j] == cols[j].name
  {
    seq(|cols|, j requires 0 <= j < |cols| => cols[j].name)
  }

  /** Every variant of every sequence. */
  function AllVariants(results: Results): set<string>
  {
    set s, v | s in results && v in results[s] :: v
  }

  /** The cell for sequence `s` and variant `v`: missing unless the run
      exists, has a record, and the record has the metric; masked when the
      value exceeds the threshold. */
  function CellValue(results: Results, s: string, v: string, metric: Metric, threshold: real): (c: Option<real>)
    requires s in results
    ensures c.Some? <==>
              && v in results[s]
              && results[s][v].Some?
              && MetricValue(results[s][v].value, metric).Some?
              && MetricValue(results[s][v].value, metric).value <= threshold
    ensures c.Some? ==> c == MetricValue(results[s][v].value, metric)
  {
    if v in results[s] && results[s][v].Some? then
      match MetricValue(results[s][v].value, metric)
      case Some(x) => if x > threshold then None else Some(x)
      case None => None
    else
      None
  }

  /** Why the table cannot be built: with no sequences pandas has no
      `Sequence` column to index by and raises. */
  datatype TableError = NoSequences

  /** One column per variant, one cell per sequence. */
  function Pivot(results: Results, sequences: seq<string>, variants: seq<string>, metric: Metric, threshold: real): (cols: seq<Column>)
    requires forall i :: 0 <= i < |sequences| ==> sequences[i] in results
    ensures Labels(cols) == variants
    ensures forall j :: 0 <= j < |cols| ==> |cols[j].cells| == |sequences|
    ensures forall j, i :: 0 <= j < |cols| && 0 <= i < |sequences| ==>
              cols[j].cells[i] == CellValue(results, sequences[i], variants[j], metric, threshold)
  {
    seq(|variants|, j requires 0 <= j < |variants| =>
      Column(variants[j], seq(|sequences|, i requires 0 <= i < |sequences| =>
        CellValue(results, sequences[i], variants[j], metric, threshold))))
  }

  /** `create_table(results, metric, outlier_threshold)`. */
  function CreateTable(results: Results, metric: Metric, threshold: real): (r: Result<Table, TableError>)
    ensures r.Failure? <==> |results| == 0
    ensures r.Success? ==>
              var t := r.value;
              && WellShaped(t)
              && StrictlySorted(t.sequences)
              && (forall s :: s in t.sequences <==> s in results)
              && StrictlySorted(Labels(t.columns))
              && (forall v :: v in Labels(t.columns) <==> v in AllVariants(results))
    ensures r.Success? ==>
              var t := r.value;
              forall j, i :: 0 <= j < |t.columns| && 0 <= i < |t.sequences| ==>
                && t.sequences[i] in results
                && t.columns[j].cells[i] == CellValue(results, t.sequences[i], t.columns[j].name, metric, threshold)
  {
    if |results| == 0 then Failure(NoSequences)
    else
      var sequences := SortedList(results.Keys);
      var variants := SortedList(AllVariants(results));
      Success(Table(sequences, Pivot(results, sequences, variants, metric, threshold)))
  }

  /** Outlier masking: no cell of the table holds a value above the
      threshold. */
  lemma NoCellAboveThreshold(results: Results, metric: Metric, threshold: real, j: int, i: int)
    requires CreateTable(results, metric, threshold).Success?
    requires var t := CreateTable(results, metric, threshold).value;
             0 <= j < |t.columns| && 0 <= i < |t.sequences| && t.columns[j].cells[i].Some?
    ensures CreateTable(results, metric, threshold).value.columns[j].cells[i].value <= threshold
  {
    var t := CreateTable(results, metric, threshold).value;
    var c := CellValue(results, t.sequences[i], t.columns[j].name, metric, threshold);
    assert t.columns[j].cells[i] == c;
  }

  // ---------------------------------------------------------------------
  // Renaming and filtering columns
  // ---------------------------------------------------------------------

  /** An `old=new` rename rule. */
  datatype Rule = Rule(from: string, to: string)

  /** `old, new = r.split('=', 1)` when `'=' in r`. */
  function ParseRule(r: string): (rule: Option<Rule>)
    ensures rule.None? <==> '=' !in r
    ensures rule.Some? ==> rule.value.from + "=" + rule.value.to == r && '=' !in rule.value.from
  {
    var i := CharIndex(r, '=');
    if i == |r| then
      None
    else
      assert r == r[..i] + "=" + r[i + 1..];
      Some(Rule(r[..i], r[i + 1..]))
  }

  /** Rule `i` of the parsed rules renames column `col`. */
  ghost predicate RuleFor(ps: seq<Option<Rule>>, i: int, col: string)
  {
    0 <= i < |ps| && ps[i].Some? && ps[i].value.from == col
  }

  /** Rule `i` is the last parsed rule that renames `col`. */
  ghost predicate LastRuleFor(ps: seq<Option<Rule>>, i: int, col: string)
  {
    RuleFor(ps, i, col) && forall j :: i < j < |ps| ==> !RuleFor(ps, j, col)
  }

  /** The loop that fills `rename_map`, over already-parsed rules (see
      `RenamesKeys` and `RenamesKeepLast`). */
  function Renames(ps: seq<Option<Rule>>, present: set<string>): (m: map<string, string>)
    ensures forall col :: col in m ==> col in present
    decreases |ps|
  {
    if ps == [] then map[]
    else
      var m := Renames(ps[..|ps| - 1], present);
      match Last(ps)
      case None => m
      case Some(rule) => if rule.from in present then m[rule.from := rule.to] else m
  }

  /** A present label is renamed exactly when some rule names it. */
  lemma {:induction false} RenamesKeys(ps: seq<Option<Rule>>, present: set<string>, col: string)
    ensures col in Renames(ps, present) <==> col in present && exists i :: RuleFor(ps, i, col)
    decreases |ps|
  {
    if ps != [] {
      var n := |ps|;
      var earlier := ps[..n - 1];
      RenamesKeys(earlier, present, col);
      if exists i :: RuleFor(earlier, i, col) {
        var i :| RuleFor(earlier, i, col);
        assert RuleFor(ps, i, col);
      }
      if Last(ps).Some? && Last(ps).value.from == col {
        assert RuleFor(ps, n - 1, col);
      }
      if exists i :: RuleFor(ps, i, col) {
        var i :| RuleFor(ps, i, col);
        if i < n - 1 {
          assert RuleFor(earlier, i, col);
        }
      }
    }
  }

  /** The new name given to a label is the one of its last rule. */
  lemma {:induction false} RenamesKeepLast(ps: seq<Option<Rule>>, present: set<string>, i: int, col: string)
    requires LastRuleFor(ps, i, col) && col in present
    ensures col in Renames(ps, present) && Renames(ps, present)[col] == ps[i].value.to
    decreases |ps|
  {
    var n := |ps|;
    if i < n - 1 {
      var earlier := ps[..n - 1];
      assert !RuleFor(ps, n - 1, col);
      forall j | i < j < n - 1
        ensures !RuleFor(earlier, j, col)
      {
        assert earlier[j] == ps[j];
        assert !RuleFor(ps, j, col);
      }
      assert RuleFor(earlier, i, col);
      RenamesKeepLast(earlier, present, i, col);
    }
  }

  /** The rules with their text parsed. */
  function ParsedRules(rules: seq<string>): (ps: seq<Option<Rule>>)
    ensures |ps| == |rules|
    ensures forall i :: 0 <= i < |rules| ==> ps[i] == ParseRule(rules[i])
  {
    seq(|rules|, i requires 0 <= i < |rules| => ParseRule(rules[i]))
  }

  /** The `rename_map` built from the rules, against the labels `present`
      before any renaming: rules without `=` and rules for absent labels
      are ignored, and a later rule for the same label wins. */
  function RenameMap(rules: seq<string>, present: set<string>): (m: map<string, string>)
    ensures forall col :: col in m <==> col in present && exists i :: RuleFor(ParsedRules(rules), i, col)
    ensures forall i, col :: LastRuleFor(ParsedRules(rules), i, col) && col in present ==>
              col in m && m[col] == ParseRule(rules[i]).value.to
  {
    var ps := ParsedRules(rules);
    var m := Renames(ps, present);
    forall col
      ensures col in m <==> col in present && exists i :: RuleFor(ps, i, col)
    {
      RenamesKeys(ps, present, col);
    }
    forall i, col | LastRuleFor(ps, i, col) && col in present
      ensures col in m && m[col] == ParseRule(rules[i]).value.to
    {
      RenamesKeepLast(ps, present, i, col);
    }
    m
  }

  /** The set of column labels. */
  function LabelSet(t: Table): set<string>
  {
    set j | 0 <= j < |t.columns| :: t.columns[j].name
  }

  /** `df.rename(columns=m)`: each label looked up once in `m`; the cells
      and the order of the columns are untouched. */
  function RenameColumns(t: Table, m: map<string, string>): (r: Table)
    ensures r.sequences == t.sequences
    ensures |r.columns| == |t.columns|
    ensures forall j :: 0 <= j < |t.columns| ==>
              && r.columns[j].cells == t.columns[j].cells
              && r.columns[j].name == (if t.columns[j].name in m then m[t.columns[j].name] else t.columns[j].name)
  {
    var cols := seq(|t.columns|, j requires 0 <= j < |t.columns| =>
      var c := t.columns[j];
      Column(if c.name in m then m[c.name] else c.name, c.cells));
    Table(t.sequences, cols)
  }

  /** Tests on a column's label. */
  function HasName(v: string): Column -> bool
  {
    (c: Column) => c.name == v
  }

  function LacksName(v: string): Column -> bool
  {
    (c: Column) => c.name != v
  }

  function NotExcluded(exclude: seq<string>): Column -> bool
  {
    (c: Column) => c.name !in exclude
  }

  /** A test on a label: is it one of `labels`? */
  function InLabels(labels: set<string>): string -> bool
  {
    (v: string) => v in labels
  }

  /** The columns labelled `v` (see `WithLabelInOrder`). */
  function WithLabel(cols: seq<Column>, v: string): (r: seq<Column>)
    ensures forall c :: c in r <==> c in cols && c.name == v
  {
    ColumnFilterHas(cols, HasName(v));
    Filter(cols, HasName(v))
  }

  /** The columns labelled `v` come in their order. */
  lemma WithLabelInOrder(cols: seq<Column>, v: string)
    ensures IsFilterOf(WithLabel(cols, v), cols, HasName(v))
  {
    FilterKeepsOrder(cols, HasName(v));
  }

  /** A column is kept by a filter exactly when it passes the test. */
  lemma ColumnFilterHas(cols: seq<Column>, keep: Column -> bool)
    ensures forall c :: c in Filter(cols, keep) <==> c in cols && keep(c)
  {
    forall c
      ensures c in Filter(cols, keep) <==> c in cols && keep(c)
    {
      FilterHas(cols, keep, c);
    }
  }

  /** `df[keep]`: for each requested label in order, the columns that carry
      it. */
  function SelectColumns(cols: seq<Column>, keep: seq<string>): (r: seq<Column>)
    ensures forall c :: c in r <==> c in cols && c.name in keep
    decreases |keep|
  {
    if keep == [] then []
    else
      var n := |keep|;
      var r := SelectColumns(cols, keep[..n - 1]) + WithLabel(cols, keep[n - 1]);
      assert forall v :: v in keep <==> v in keep[..n - 1] || v == keep[n - 1];
      r
  }

  /** The column group of each requested label, in the order requested. */
  function LabelGroups(cols: seq<Column>, keep: seq<string>): (gs: seq<seq<Column>>)
    ensures |gs| == |keep|
    ensures forall i :: 0 <= i < |keep| ==> gs[i] == WithLabel(cols, keep[i])
    decreases |keep|
  {
    if keep == [] then []
    else LabelGroups(cols, keep[..|keep| - 1]) + [WithLabel(cols, keep[|keep| - 1])]
  }

  /** The selection is the requested labels' column groups joined, in the
      order the labels are requested. */
  lemma {:induction false} SelectColumnsGroups(cols: seq<Column>, keep: seq<string>)
    ensures SelectColumns(cols, keep) == Flatten(LabelGroups(cols, keep))
    decreases |keep|
  {
    if keep != [] {
      var gs := LabelGroups(cols, keep);
      SelectColumnsGroups(cols, keep[..|keep| - 1]);
      assert gs[..|gs| - 1] == LabelGroups(cols, keep[..|keep| - 1]);
    }
  }

  /** Each label group keeps the table's own column order. */
  lemma LabelGroupsInOrder(cols: seq<Column>, keep: seq<string>)
    ensures forall i :: 0 <= i < |keep| ==> IsFilterOf(LabelGroups(cols, keep)[i], cols, HasName(keep[i]))
  {
    forall i | 0 <= i < |keep|
      ensures IsFilterOf(LabelGroups(cols, keep)[i], cols, HasName(keep[i]))
    {
      WithLabelInOrder(cols, keep[i]);
    }
  }

  /** `df.drop(columns=[v])` when `v` is a label; otherwise no change (see
      `DropLabelInOrder`). */
  function DropLabel(cols: seq<Column>, v: string): (r: seq<Column>)
    ensures forall c :: c in r <==> c in cols && c.name != v
    ensures (forall c :: c in cols ==> c.name != v) ==> r == cols
  {
    ColumnFilterHas(cols, LacksName(v));
    assert (forall c :: c in cols ==> c.name != v) ==> Filter(cols, LacksName(v)) == cols by {
      if forall c :: c in cols ==> c.name != v {
        FilterAll(cols, LacksName(v));
      }
    }
    Filter(cols, LacksName(v))
  }

  /** Dropping a label keeps the other columns in their order. */
  lemma DropLabelInOrder(cols: seq<Column>, v: string)
    ensures IsFilterOf(DropLabel(cols, v), cols, LacksName(v))
  {
    FilterKeepsOrder(cols, LacksName(v));
  }

  /** The exclude loop: each excluded label dropped in turn. */
  function DropLabels(cols: seq<Column>, exclude: seq<string>): (r: seq<Column>)
    ensures forall c :: c in r <==> c in cols && c.name !in exclude
    decreases |exclude|
  {
    if exclude == [] then cols
    else
      var n := |exclude|;
      var r := DropLabel(DropLabels(cols, exclude[..n - 1]), exclude[n - 1]);
      assert forall v :: v in exclude <==> v in exclude[..n - 1] || v == exclude[n - 1];
      r
  }

  /** Dropping the excluded labels one by one keeps, in order, exactly the
      columns whose label is not excluded. */
  lemma {:induction false} DropLabelsInOrder(cols: seq<Column>, exclude: seq<string>)
    ensures DropLabels(cols, exclude) == Filter(cols, NotExcluded(exclude))
    ensures IsFilterOf(DropLabels(cols, exclude), cols, NotExcluded(exclude))
    decreases |exclude|
  {
    if exclude == [] {
      FilterAll(cols, NotExcluded(exclude));
    } else {
      var n := |exclude|;
      var front := exclude[..n - 1];
      DropLabelsInOrder(cols, front);
      assert exclude == front + [exclude[n - 1]];
      forall c: Column
        ensures NotExcluded(exclude)(c) == (NotExcluded(front)(c) && LacksName(exclude[n - 1])(c))
      {
      }
      FilterTwice(cols, NotExcluded(front), LacksName(exclude[n - 1]), NotExcluded(exclude));
    }
    FilterKeepsOrder(cols, NotExcluded(exclude));
  }

  /** `[v for v in variants if v in df.columns]` (see `PresentInOrder`). */
  function Present(variants: seq<string>, labels: set<string>): (r: seq<string>)
    ensures forall v :: v in r <==> v in variants && v in labels
  {
    LabelFilterHas(variants, InLabels(labels));
    Filter(variants, InLabels(labels))
  }

  /** The requested variants that are columns keep the requested order. */
  lemma PresentInOrder(variants: seq<string>, labels: set<string>)
    ensures IsFilterOf(Present(variants, labels), variants, InLabels(labels))
  {
    FilterKeepsOrder(variants, InLabels(labels));
  }

  /** A label is kept by a filter exactly when it passes the test. */
  lemma LabelFilterHas(vs: seq<string>, keep: string -> bool)
    ensures forall v :: v in Filter(vs, keep) <==> v in vs && keep(v)
  {
    forall v
      ensures v in Filter(vs, keep) <==> v in vs && keep(v)
    {
      FilterHas(vs, keep, v);
    }
  }

  /** The rename-then-filter block of the table generator's command line
      handling: rename first, then keep the requested variants that exist
      (in requested order), or leave the table alone when none exists; with
      no requested variants, drop the excluded ones. An empty `variants`
      stands for the option not being given. */
  function ApplyColumnOptions(t: Table, rules: seq<string>, variants: seq<string>, exclude: seq<string>): (r: Table)
    ensures var renamed := RenameColumns(t, RenameMap(rules, LabelSet(t)));
            && r.sequences == t.sequences
            && (forall c :: c in r.columns ==> c in renamed.columns)
            && (variants != [] && (exists v :: v in variants && v in LabelSet(renamed)) ==>
                  forall c :: c in renamed.columns ==> (c in r.columns <==> c.name in variants))
            && (variants != [] && (forall v :: v in variants ==> v !in LabelSet(renamed)) ==> r == renamed)
            && (variants == [] ==>
                  forall c :: c in renamed.columns ==> (c in r.columns <==> c.name !in exclude))
  {
    var renamed := RenameColumns(t, RenameMap(rules, LabelSet(t)));
    if variants != [] then
      var keep := Present(variants, LabelSet(renamed));
      if keep != [] then
        assert keep[0] in keep;
        assert forall c :: c in renamed.columns ==> c.name in LabelSet(renamed);
        Table(renamed.sequences, SelectColumns(renamed.columns, keep))
      else
        renamed
    else
      Table(renamed.sequences, DropLabels(renamed.columns, exclude))
  }

  /** Filtering keeps whole columns, so a well-shaped table stays so. */
  lemma ApplyColumnOptionsShape(t: Table, rules: seq<string>, variants: seq<string>, exclude: seq<string>)
    requires WellShaped(t)
    ensures WellShaped(ApplyColumnOptions(t, rules, variants, exclude))
  {
    var renamed := RenameColumns(t, RenameMap(rules, LabelSet(t)));
    var r := ApplyColumnOptions(t, rules, variants, exclude);
    forall j | 0 <= j < |r.columns|
      ensures |r.columns[j].cells| == |r.sequences|
    {
      assert r.columns[j] in r.columns;
      var k :| 0 <= k < |renamed.columns| && renamed.columns[k] == r.columns[j];
    }
  }

  /** With requested variants of which some exist, and labels that stay
      distinct after renaming, the table keeps exactly the existing
      requested variants, in requested order. */
  lemma SelectedInOrder(t: Table, rules: seq<string>, variants: seq<string>, exclude: seq<string>)
    ensures var renamed := RenameColumns(t, RenameMap(rules, LabelSet(t)));
            var keep := Present(variants, LabelSet(renamed));
            variants != [] && keep != [] && DistinctLabels(renamed.columns) ==>
              Labels(ApplyColumnOptions(t, rules, variants, exclude).columns) == keep
  {
    var renamed := RenameColumns(t, RenameMap(rules, LabelSet(t)));
    var keep := Present(variants, LabelSet(renamed));
    if variants != [] && keep != [] && DistinctLabels(renamed.columns) {
      forall v | v in keep
        ensures exists k :: 0 <= k < |renamed.columns| && renamed.columns[k].name == v
      {
        assert v in LabelSet(renamed);
      }
      SelectInRequestedOrder(renamed.columns, keep);
    }
  }

  /** With no variants requested, the table keeps, in their order, exactly
      the renamed columns whose label is not excluded. */
  lemma ExcludedInOrder(t: Table, rules: seq<string>, exclude: seq<string>)
    ensures var renamed := RenameColumns(t, RenameMap(rules, LabelSet(t)));
            IsFilterOf(ApplyColumnOptions(t, rules, [], exclude).columns, renamed.columns, NotExcluded(exclude))
  {
    var renamed := RenameColumns(t, RenameMap(rules, LabelSet(t)));
    ExcludeOnly(t, rules, exclude);
    DropLabelsInOrder(renamed.columns, exclude);
  }

  /** Renaming comes before filtering: asking for a column by its new name
      selects the renamed column and nothing else. */
  lemma SelectByNewName(t: Table, rules: seq<string>, i: int, exclude: seq<string>)
    requires 0 <= i < |rules| && ParseRule(rules[i]).Some?
    requires LastRuleFor(ParsedRules(rules), i, ParseRule(rules[i]).value.from)
    requires ParseRule(rules[i]).value.from in LabelSet(t)
    ensures var rule := ParseRule(rules[i]).value;
            var r := ApplyColumnOptions(t, rules, [rule.to], exclude);
            && (exists c :: c in r.columns && c.name == rule.to)
            && (forall c :: c in r.columns ==> c.name == rule.to)
  {
    var rule := ParseRule(rules[i]).value;
    var renamed := RenameColumns(t, RenameMap(rules, LabelSet(t)));
    var j := RenamedColumn(t, rules, i);
    assert rule.to in LabelSet(renamed);
    assert renamed.columns[j] in renamed.columns;
  }

  /** The column renamed by rule `i` carries its new name. */
  lemma RenamedColumn(t: Table, rules: seq<string>, i: int) returns (j: int)
    requires 0 <= i < |rules| && ParseRule(rules[i]).Some?
    requires LastRuleFor(ParsedRules(rules), i, ParseRule(rules[i]).value.from)
    requires ParseRule(rules[i]).value.from in LabelSet(t)
    ensures var renamed := RenameColumns(t, RenameMap(rules, LabelSet(t)));
            0 <= j < |renamed.columns| && renamed.columns[j].name == ParseRule(rules[i]).value.to
  {
    var rule := ParseRule(rules[i]).value;
    var m := RenameMap(rules, LabelSet(t));
    assert m[rule.from] == rule.to;
    j :| 0 <= j < |t.columns| && t.columns[j].name == rule.from;
  }

  /** The command line's default `--rename`, `--exclude`, `--metric` and
      `--outlier`. */
  const DefaultRenames: seq<string> := ["base_w0=baseline"]
  const DefaultExclude: seq<string> := ["sdi_w0"]
  const DefaultMetric: Metric := BestRmse
  const DefaultOutlier: real := 100.0

  /** With the default `--metric` and `--outlier`, a cell that is shown
      holds its run's best RMSE, and that is at most 100. */
  lemma DefaultTableCells(results: Results, j: int, i: int)
    requires CreateTable(results, DefaultMetric, DefaultOutlier).Success?
    requires var t := CreateTable(results, DefaultMetric, DefaultOutlier).value;
             0 <= j < |t.columns| && 0 <= i < |t.sequences| && t.columns[j].cells[i].Some?
    ensures var t := CreateTable(results, DefaultMetric, DefaultOutlier).value;
            var s := t.sequences[i];
            var v := t.columns[j].name;
            && s in results && v in results[s] && results[s][v].Some?
            && t.columns[j].cells[i] == Some(results[s][v].value.bestRmse)
            && results[s][v].value.bestRmse <= 100.0
  {
    var t := CreateTable(results, DefaultMetric, DefaultOutlier).value;
    var c := CellValue(results, t.sequences[i], t.columns[j].name, DefaultMetric, DefaultOutlier);
    assert t.columns[j].cells[i] == c;
  }

  /** The default rename rule reads as `base_w0` → `baseline`. */
  lemma DefaultRule()
    ensures ParseRule(DefaultRenames[0]) == Some(Rule("base_w0", "baseline"))
  {
    var r := DefaultRenames[0];
    assert r[..7] == "base_w0" && r[7] == '=' && r[8..] == "baseline";
    assert forall k :: 0 <= k < 7 ==> r[k] != '=';
    assert CharIndex(r, '=') == 7;
  }

  /** The default rename map renames `base_w0` when it is a column, and
      nothing else. */
  lemma DefaultRenameMap(present: set<string>)
    ensures RenameMap(DefaultRenames, present) ==
              if "base_w0" in present then map["base_w0" := "baseline"] else map[]
  {
    DefaultRule();
    var rule := Rule("base_w0", "baseline");
    assert ParsedRules(DefaultRenames) == [Some(rule)];
    SingleRuleRenames(rule, present);
  }

  /** One rule renames its column when present, and nothing else. */
  lemma SingleRuleRenames(rule: Rule, present: set<string>)
    ensures Renames([Some(rule)], present) ==
              if rule.from in present then map[rule.from := rule.to] else map[]
  {
    var ps := [Some(rule)];
    assert ps[..0] == [];
  }

  /** With the default options, `base_w0` is shown as `baseline`, `sdi_w0`
      is dropped, and every other column is kept unchanged. */
  lemma DefaultColumnOptions(t: Table)
    ensures var r := ApplyColumnOptions(t, DefaultRenames, [], DefaultExclude);
            && (forall c :: c in r.columns ==> c.name != "base_w0" && c.name != "sdi_w0")
            && (forall j :: 0 <= j < |t.columns| && t.columns[j].name != "sdi_w0" ==>
                  Column(if t.columns[j].name == "base_w0" then "baseline" else t.columns[j].name,
                         t.columns[j].cells) in r.columns)
  {
    DefaultRenamed(t);
    var renamed := RenameColumns(t, RenameMap(DefaultRenames, LabelSet(t)));
    ExcludeOnly(t, DefaultRenames, DefaultExclude);
    DefaultColumnsKept(t.columns, renamed.columns, DropLabels(renamed.columns, DefaultExclude));
  }

  /** With no variants requested, the options rename and then drop the
      excluded labels. */
  lemma ExcludeOnly(t: Table, rules: seq<string>, exclude: seq<string>)
    ensures ApplyColumnOptions(t, rules, [], exclude).columns ==
              DropLabels(RenameColumns(t, RenameMap(rules, LabelSet(t))).columns, exclude)
  {
  }

  /** Renaming by the default rule and then dropping `sdi_w0` leaves no
      `base_w0` or `sdi_w0`, and keeps every other column under its new
      name. */
  lemma DefaultColumnsKept(cols: seq<Column>, renamed: seq<Column>, kept: seq<Column>)
    requires |renamed| == |cols|
    requires forall j :: 0 <= j < |cols| ==>
               renamed[j] == Column(if cols[j].name == "base_w0" then "baseline" else cols[j].name, cols[j].cells)
    requires forall c :: c in kept <==> c in renamed && c.name != "sdi_w0"
    ensures forall c :: c in kept ==> c.name != "base_w0" && c.name != "sdi_w0"
    ensures forall j :: 0 <= j < |cols| && cols[j].name != "sdi_w0" ==>
              Column(if cols[j].name == "base_w0" then "baseline" else cols[j].name, cols[j].cells) in kept
  {
    forall c | c in kept
      ensures c.name != "base_w0" && c.name != "sdi_w0"
    {
      var j :| 0 <= j < |renamed| && renamed[j] == c;
    }
    forall j | 0 <= j < |cols| && cols[j].name != "sdi_w0"
      ensures Column(if cols[j].name == "base_w0" then "baseline" else cols[j].name, cols[j].cells) in kept
    {
      assert renamed[j] in renamed;
    }
  }

  /** The default rename turns `base_w0` into `baseline` column by column
      and leaves every other column as it is. */
  lemma DefaultRenamed(t: Table)
    ensures var renamed := RenameColumns(t, RenameMap(DefaultRenames, LabelSet(t)));
            forall j :: 0 <= j < |t.columns| ==>
              renamed.columns[j] ==
                Column(if t.columns[j].name == "base_w0" then "baseline" else t.columns[j].name,
                       t.columns[j].cells)
  {
    DefaultRenameMap(LabelSet(t));
    forall j | 0 <= j < |t.columns|
      ensures t.columns[j].name in LabelSet(t)
    {
    }
  }


  /** Labels are pairwise different. */
  ghost predicate DistinctLabels(cols: seq<Column>)
  {
    forall a, b :: 0 <= a < b < |cols| ==> cols[a].name != cols[b].name
  }

  /** With distinct labels, a present label picks exactly its column. */
  lemma {:induction false} WithLabelSingle(cols: seq<Column>, k: int)
    requires DistinctLabels(cols)
    requires 0 <= k < |cols|
    ensures WithLabel(cols, cols[k].name) == [cols[k]]
  {
    var v := cols[k].name;
    assert DistinctLabels(cols[1..]) by {
      assert forall a :: 0 <= a < |cols| - 1 ==> cols[1..][a] == cols[a + 1];
    }
    if k == 0 {
      WithLabelAbsent(cols[1..], v);
    } else {
      WithLabelSingle(cols[1..], k - 1);
    }
  }

  /** A label that no column carries picks nothing. */
  lemma WithLabelAbsent(cols: seq<Column>, v: string)
    requires forall c :: c in cols ==> c.name != v
    ensures WithLabel(cols, v) == []
  {
    FilterEmpty(cols, HasName(v));
  }

  /** With distinct labels, selecting present labels yields exactly those
      columns, in the requested order. */
  lemma {:induction false} SelectInRequestedOrder(cols: seq<Column>, keep: seq<string>)
    requires DistinctLabels(cols)
    requires forall v :: v in keep ==> exists k :: 0 <= k < |cols| && cols[k].name == v
    ensures Labels(SelectColumns(cols, keep)) == keep
  {
    if keep != [] {
      var n := |keep|;
      var front := keep[..n - 1];
      forall v | v in front
        ensures exists k :: 0 <= k < |cols| && cols[k].name == v
      {
        assert v in keep;
      }
      SelectInRequestedOrder(cols, front);
      assert keep[n - 1] in keep;
      var k :| 0 <= k < |cols| && cols[k].name == keep[n - 1];
      WithLabelSingle(cols, k);
      var selected := SelectColumns(cols, front);
      assert SelectColumns(cols, keep) == selected + [cols[k]];
      LabelsAppend(selected, cols[k]);
      SplitLast(keep);
    }
  }

  /** A non-empty sequence is its front followed by its last element. */
  lemma SplitLast(keep: seq<string>)
    requires keep != []
    ensures keep == keep[..|keep| - 1] + [keep[|keep| - 1]]
  {
  }

  /** The labels of a table with one more column. */
  lemma LabelsAppend(cols: seq<Column>, c: Column)
    ensures Labels(cols + [c]) == Labels(cols) + [c.name]
  {
    var both := cols + [c];
    assert forall j :: 0 <= j < |cols| ==> both[j] == cols[j];
  }

  // ---------------------------------------------------------------------
  // Row highlighting
  // ---------------------------------------------------------------------

  /** How a cell of the exported HTML table is rendered. */
  datatype CellClass = Missing | Best | Worst | Plain

  /** The non-missing values of a row, in order. */
  function ValidValues(row: seq<Option<real>>): (vs: seq<real>)
    ensures |vs| <= |row|
    ensures forall x :: x in vs <==> Some(x) in row
    ensures vs == [] <==> forall k :: 0 <= k < |row| ==> row[k].None?
  {
    if row == [] then []
    else
      var rest := ValidValues(row[1..]);
      assert forall o :: o in row <==> o == row[0] || o in row[1..];
      assert forall k :: 1 <= k < |row| ==> row[k] == row[1..][k - 1];
      match row[0]
      case Some(x) => [x] + rest
      case None => rest
  }

  /** A cell that is not missing. */
  predicate Known(cell: Option<real>)
  {
    cell.Some?
  }

  /** The values are those of the non-missing cells, one per such cell,
      in the order of the row. */
  lemma ValidValuesInOrder(row: seq<Option<real>>)
    ensures var vs := ValidValues(row);
            var idx := Positions(row, Known);
            && |vs| == |idx|
            && forall k :: 0 <= k < |idx| ==> idx[k] < |row| && row[idx[k]] == Some(vs[k])
  {
    ValuesOfKnown(row);
    FilterKeepsOrder(row, Known);
  }

  /** The values, each wrapped back, are the non-missing cells. */
  lemma {:induction false} ValuesOfKnown(row: seq<Option<real>>)
    ensures var vs := ValidValues(row);
            var known := Filter(row, Known);
            && |vs| == |known|
            && forall k :: 0 <= k < |vs| ==> known[k] == Some(vs[k])
  {
    if row != [] {
      ValuesOfKnown(row[1..]);
      var vs := ValidValues(row);
      var rest := ValidValues(row[1..]);
      var known := Filter(row, Known);
      assert known == (if Known(row[0]) then [row[0]] else []) + Filter(row[1..], Known);
      if row[0].Some? {
        assert vs == [row[0].value] + rest;
      } else {
        assert vs == rest;
      }
    }
  }

  /** `x` is no greater than any non-missing value of the row. */
  ghost predicate IsRowMin(row: seq<Option<real>>, x: real)
  {
    forall j :: 0 <= j < |row| && row[j].Some? ==> x <= row[j].value
  }

  /** `x` is no smaller than any non-missing value of the row. */
  ghost predicate IsRowMax(row: seq<Option<real>>, x: real)
  {
    forall j :: 0 <= j < |row| && row[j].Some? ==> row[j].value <= x
  }

  /** The classification loop of `export_tables` for one row: missing
      cells, cells equal to the row minimum (best), and cells equal to the
      row maximum (worst) when they are not also the minimum and the row
      has more than two values. */
  function ClassifyRow(row: seq<Option<real>>): (cs: seq<CellClass>)
    ensures |cs| == |row|
    ensures forall k :: 0 <= k < |row| ==> (cs[k] == Missing <==> row[k].None?)
    ensures forall k :: 0 <= k < |row| ==> (cs[k] == Best <==> row[k].Some? && IsRowMin(row, row[k].value))
    ensures forall k :: 0 <= k < |row| ==>
              (cs[k] == Worst <==>
                 && row[k].Some?
                 && IsRowMax(row, row[k].value)
                 && !IsRowMin(row, row[k].value)
                 && |ValidValues(row)| > 2)
  {
    var vs := ValidValues(row);
    if vs == [] then
      seq(|row|, k requires 0 <= k < |row| => Missing)
    else
      var cs := seq(|row|, k requires 0 <= k < |row| => CellClassOf(row[k], MinOf(vs), MaxOf(vs), |vs|));
      ClassifyCells(row);
      cs
  }

  /** The class of one cell, given the row's minimum, maximum and number
      of non-missing values. */
  function CellClassOf(cell: Option<real>, lo: real, hi: real, count: nat): CellClass
  {
    match cell
    case None => Missing
    case Some(x) =>
      if x == lo then Best
      else if x == hi && count > 2 then Worst
      else Plain
  }

  /** Classifying a cell against the row's extremes marks exactly the
      missing, minimal and (in rows of more than two values) maximal
      non-minimal cells. */
  lemma ClassifyCells(row: seq<Option<real>>)
    requires ValidValues(row) != []
    ensures var vs := ValidValues(row);
            forall k :: 0 <= k < |row| ==>
              var c := CellClassOf(row[k], MinOf(vs), MaxOf(vs), |vs|);
              && (c == Missing <==> row[k].None?)
              && (c == Best <==> row[k].Some? && IsRowMin(row, row[k].value))
              && (c == Worst <==>
                    && row[k].Some?
                    && IsRowMax(row, row[k].value)
                    && !IsRowMin(row, row[k].value)
                    && |vs| > 2)
  {
    RowExtremes(row);
  }

  /** The row minimum and maximum are the least and greatest of the
      non-missing values, and no other value is either. */
  lemma RowExtremes(row: seq<Option<real>>)
    requires ValidValues(row) != []
    ensures var vs := ValidValues(row);
            && IsRowMin(row, MinOf(vs)) && IsRowMax(row, MaxOf(vs))
            && (forall k :: 0 <= k < |row| && row[k].Some? && IsRowMin(row, row[k].value) ==> row[k].value == MinOf(vs))
            && (forall k :: 0 <= k < |row| && row[k].Some? && IsRowMax(row, row[k].value) ==> row[k].value == MaxOf(vs))
  {
    var vs := ValidValues(row);
    ValuesBetween(row);
    ExtremesPresent(row);
    var a :| 0 <= a < |row| && row[a] == Some(MinOf(vs));
    var b :| 0 <= b < |row| && row[b] == Some(MaxOf(vs));
  }

  /** Every non-missing value of a row lies between the row minimum and
      the row maximum. */
  lemma ValuesBetween(row: seq<Option<real>>)
    requires ValidValues(row) != []
    ensures IsRowMin(row, MinOf(ValidValues(row)))
    ensures IsRowMax(row, MaxOf(ValidValues(row)))
  {
    var vs := ValidValues(row);
    forall k | 0 <= k < |row| && row[k].Some?
      ensures MinOf(vs) <= row[k].value <= MaxOf(vs)
    {
      assert row[k] in row;
      assert row[k].value in vs;
      var j :| 0 <= j < |vs| && vs[j] == row[k].value;
    }
  }

  /** The row minimum and maximum are values of some cells of the row. */
  lemma ExtremesPresent(row: seq<Option<real>>)
    requires ValidValues(row) != []
    ensures exists a :: 0 <= a < |row| && row[a] == Some(MinOf(ValidValues(row)))
    ensures exists b :: 0 <= b < |row| && row[b] == Some(MaxOf(ValidValues(row)))
  {
    var vs := ValidValues(row);
    assert Some(MinOf(vs)) in row;
    assert Some(MaxOf(vs)) in row;
  }


  /** Every row with a value has a best cell, and a row with at most two
      values has no worst cell. */
  lemma RowHasBest(row: seq<Option<real>>)
    ensures (exists k :: 0 <= k < |row| && row[k].Some?) ==> Best in ClassifyRow(row)
    ensures |ValidValues(row)| <= 2 ==> Worst !in ClassifyRow(row)
  {
    var cs := ClassifyRow(row);
    var vs := ValidValues(row);
    if vs != [] {
      var lo := MinOf(vs);
      assert Some(lo) in row;
      var k :| 0 <= k < |row| && row[k] == Some(lo);
      assert IsRowMin(row, lo) by {
        assert forall j :: 0 <= j < |row| && row[j].Some? ==> row[j].value in vs by {
          assert forall j :: 0 <= j < |row| ==> row[j] in row;
        }
      }
      assert cs[k] == Best;
    }
  }

  /** The `i`-th row of a table. */
  function RowOf(t: Table, i: int): (row: seq<Option<real>>)
    requires WellShaped(t) && 0 <= i < |t.sequences|
    ensures |row| == |t.columns|
    ensures forall j :: 0 <= j < |t.columns| ==> row[j] == t.columns[j].cells[i]
  {
    seq(|t.columns|, j requires 0 <= j < |t.columns| => t.columns[j].cells[i])
  }

  /** In the exported table, the cell of column `j` in row `i` is marked
      best exactly when it has a value and no other column of that row has
      a smaller one. */
  lemma BestCellOfTable(t: Table, i: int, j: int)
    requires WellShaped(t) && 0 <= i < |t.sequences| && 0 <= j < |t.columns|
    ensures ClassifyRow(RowOf(t, i))[j] == Best <==>
              && t.columns[j].cells[i].Some?
              && forall l :: 0 <= l < |t.columns| && t.columns[l].cells[i].Some? ==>
                   t.columns[j].cells[i].value <= t.columns[l].cells[i].value
  {
    var row := RowOf(t, i);
    if row[j].Some? {
      assert IsRowMin(row, row[j].value) <==>
               forall l :: 0 <= l < |t.columns| && t.columns[l].cells[i].Some? ==>
                 row[j].value <= t.columns[l].cells[i].value;
    }
  }
}

=== FILE: string_order.dfy ===
/** Python's ordering of `str` values (lexicographic by code point), and
    `sorted(...)` of a finite set of strings, which both scripts use to put
    sequence codes and variant names in order. */
module StringOrder {

  /** `a < b` for Python strings: the first differing code point decides,
      and a proper prefix comes first. */
  predicate Below(a: string, b: string)
  {
    if a == [] then b != []
    else if b == [] then false
    else if a[0] != b[0] then a[0] < b[0]
    else Below(a[1..], b[1..])
  }

  lemma {:induction false} BelowIrreflexive(a: string)
    ensures !Below(a, a)
  {
    if a != [] {
      BelowIrreflexive(a[1..]);
    }
  }

  lemma {:induction false} BelowTransitive(a: string, b: string, c: string)
    requires Below(a, b) && Below(b, c)
    ensures Below(a, c)
  {
    if a != [] && b != [] && c != [] && a[0] == b[0] && b[0] == c[0] {
      BelowTransitive(a[1..], b[1..], c[1..]);
    }
  }

  lemma {:induction false} BelowTotal(a: string, b: string)
    ensures a == b || Below(a, b) || Below(b, a)
  {
    if a != [] && b != [] && a[0] == b[0] {
      BelowTotal(a[1..], b[1..]);
      if a[1..] == b[1..] {
        assert a == [a[0]] + a[1..] && b == [b[0]] + b[1..];
      }
    }
  }

  /** Every element of `s` other than `m` is above `m`. */
  predicate IsLeast(m: string, s: set<string>)
  {
    m in s && forall y :: y in s && y != m ==> Below(m, y)
  }

  /** A finite non-empty set of strings has a least element. */
  lemma {:induction false} LeastExists(s: set<string>)
    requires s != {}
    ensures exists m :: IsLeast(m, s)
    decreases |s|
  {
    var x :| x in s;
    if s == {x} {
      assert IsLeast(x, s);
    } else {
      LeastExists(s - {x});
      var m :| IsLeast(m, s - {x});
      BelowTotal(m, x);
      if Below(m, x) {
        assert IsLeast(m, s);
      } else {
        forall y | y in s && y != x
          ensures Below(x, y)
        {
          if y != m {
            BelowTransitive(x, m, y);
          }
        }
        assert IsLeast(x, s);
      }
    }
  }

  /** Two least elements are the same element. */
  lemma LeastUnique(s: set<string>)
    ensures forall m1, m2 :: IsLeast(m1, s) && IsLeast(m2, s) ==> m1 == m2
  {
    forall m1, m2 | IsLeast(m1, s) && IsLeast(m2, s)
      ensures m1 == m2
    {
      if m1 != m2 {
        BelowTransitive(m1, m2, m1);
        BelowIrreflexive(m1);
      }
    }
  }

  /** `min(s)`. */
  function Least(s: set<string>): (m: string)
    requires s != {}
    ensures IsLeast(m, s)
  {
    LeastExists(s);
    LeastUnique(s);
    var m :| IsLeast(m, s);
    m
  }

  /** `xs` is in strictly increasing order, so it has no duplicates. */
  ghost predicate StrictlySorted(xs: seq<string>)
  {
    forall i, j :: 0 <= i < j < |xs| ==> Below(xs[i], xs[j])
  }

  /** `sorted(s)`: the elements of `s`, each once, in increasing order. */
  function SortedList(s: set<string>): (xs: seq<string>)
    ensures StrictlySorted(xs)
    ensures |xs| == |s|
    ensures forall x :: x in xs <==> x in s
    decreases |s|
  {
    if s == {} then []
    else
      var m := Least(s);
      var rest := SortedList(s - {m});
      assert forall x :: x in rest ==> Below(m, x);
      [m] + rest
  }

  /** The first string `sorted` returns is the set's least element. */
  lemma SortedFirstIsLeast(s: set<string>)
    requires s != {}
    ensures IsLeast(SortedList(s)[0], s)
  {
  }
}

=== FILE: text.dfy ===
/** Character classes and string operations the two scripts rely on:
    regular-expression classes, `str.strip()`, and `re.split` by a
    literal marker. Strings are sequences of Unicode scalar values. */
module Text {
  import opened Options

  /** The regular-expression class `\d`, restricted to ASCII digits. */
  predicate IsAsciiDigit(c: char)
  {
    '0' <= c <= '9'
  }

  /** Python's `str.isspace()`, which is also the `\s` class of a `str`
      regular expression: the characters stripped by `str.strip()`. */
  predicate IsSpace(c: char)
  {
    || ('\t' <= c <= '\r')
    || ('\U{1C}' <= c <= '\U{1F}')
    || c == ' '
    || c == '\U{85}'
    || c == '\U{A0}'
    || c == '\U{1680}'
    || ('\U{2000}' <= c <= '\U{200A}')
    || c == '\U{2028}'
    || c == '\U{2029}'
    || c == '\U{202F}'
    || c == '\U{205F}'
    || c == '\U{3000}'
  }

  /** What the pattern `.*` matches at the start of `s`: `.` matches every
      character except a newline, so the match stops at the first '\n'. */
  function LineHead(s: string): (r: string)
    ensures r <= s
    ensures '\n' !in r
    ensures |r| < |s| ==> s[|r|] == '\n'
  {
    if s == [] || s[0] == '\n' then [] else [s[0]] + LineHead(s[1..])
  }

  /** A string with no newline is matched entirely by `.*`. */
  lemma LineHeadWithoutNewline(s: string)
    requires '\n' !in s
    ensures LineHead(s) == s
  {
  }

  /** The index of the first `c` in `s`, or `|s|` when there is none. */
  function CharIndex(s: string, c: char): (i: nat)
    ensures i <= |s|
    ensures forall k :: 0 <= k < i ==> s[k] != c
    ensures i < |s| ==> s[i] == c
  {
    if s == [] || s[0] == c then 0 else 1 + CharIndex(s[1..], c)
  }

  /** All characters of `s` are whitespace. */
  predicate AllSpace(s: string)
  {
    forall k :: 0 <= k < |s| ==> IsSpace(s[k])
  }

  /** The end of the whitespace run of `s` that starts at `lo`. */
  function SpaceRunEnd(s: string, lo: nat): (n: nat)
    requires lo <= |s|
    ensures lo <= n <= |s|
    ensures forall k :: lo <= k < n ==> IsSpace(s[k])
    ensures n < |s| ==> !IsSpace(s[n])
    decreases |s| - lo
  {
    if lo < |s| && IsSpace(s[lo]) then SpaceRunEnd(s, lo + 1) else lo
  }

  /** The start of the whitespace run of `s` that ends at `hi`, not going
      below `lo`. */
  function SpaceRunStart(s: string, lo: nat, hi: nat): (n: nat)
    requires lo <= hi <= |s|
    ensures lo <= n <= hi
    ensures forall k :: n <= k < hi ==> IsSpace(s[k])
    ensures n > lo ==> !IsSpace(s[n - 1])
    decreases hi
  {
    if hi > lo && IsSpace(s[hi - 1]) then SpaceRunStart(s, lo, hi - 1) else hi
  }

  /** `r` is `s` with whitespace removed at both ends: a contiguous part of
      `s`, surrounded only by whitespace, that neither starts nor ends with
      whitespace. */
  ghost predicate IsStripOf(r: string, s: string)
  {
    && (r != [] ==> !IsSpace(r[0]) && !IsSpace(r[|r| - 1]))
    && exists i, j :: IsSpacedSlice(s, i, j) && r == s[i..j]
  }

  /** `s[i..j]` has only whitespace around it. */
  ghost predicate IsSpacedSlice(s: string, i: int, j: int)
  {
    0 <= i <= j <= |s| && AllSpace(s[..i]) && AllSpace(s[j..])
  }

  /** Whitespace on both sides of an empty slice covers the whole string. */
  lemma SpacedSliceCovers(s: string, i: int, j: int)
    requires IsSpacedSlice(s, i, j)
    ensures i == j ==> AllSpace(s)
  {
    if i == j {
      forall k | 0 <= k < |s|
        ensures IsSpace(s[k])
      {
        if k < i {
          assert s[k] == s[..i][k];
        } else {
          assert s[k] == s[i..][k - i];
        }
      }
    }
  }

  /** A stripped string neither starts nor ends with whitespace. */
  lemma StripEnds(s: string)
    ensures Strip(s) != [] ==> !IsSpace(Strip(s)[0]) && !IsSpace(Strip(s)[|Strip(s)| - 1])
  {
  }

  /** Python's `str.strip()` with no argument. */
  function Strip(s: string): (r: string)
    ensures IsStripOf(r, s)
    ensures r == [] <==> AllSpace(s)
  {
    var i := SpaceRunEnd(s, 0);
    var j := SpaceRunStart(s, i, |s|);
    SpacePrefix(s, i);
    SpaceSuffix(s, j);
    SpacedSliceCovers(s, i, j);
    s[i..j]
  }

  /** Whitespace at every index below `i` makes `s[..i]` whitespace. */
  lemma SpacePrefix(s: string, i: nat)
    requires i <= |s|
    requires forall k :: 0 <= k < i ==> IsSpace(s[k])
    ensures AllSpace(s[..i])
  {
    forall k | 0 <= k < i
      ensures IsSpace(s[..i][k])
    {
      assert s[..i][k] == s[k];
    }
  }

  /** Whitespace at every index from `j` on makes `s[j..]` whitespace. */
  lemma SpaceSuffix(s: string, j: nat)
    requires j <= |s|
    requires forall k :: j <= k < |s| ==> IsSpace(s[k])
    ensures AllSpace(s[j..])
  {
    var post := s[j..];
    forall k | 0 <= k < |post|
      ensures IsSpace(post[k])
    {
      assert post[k] == s[j + k];
    }
  }

  /** `m` occurs in `s` starting at index `i`. */
  predicate OccursAt(s: string, m: string, i: int)
  {
    0 <= i && i + |m| <= |s| && s[i..i + |m|] == m
  }

  /** The leftmost occurrence of `m` in `s` at or after index `k`. */
  function IndexOfFrom(s: string, m: string, k: nat): (r: Option<nat>)
    requires k <= |s|
    ensures r.Some? ==> k <= r.value && OccursAt(s, m, r.value)
    ensures r.Some? ==> forall j :: k <= j < r.value ==> !OccursAt(s, m, j)
    ensures r.None? ==> forall j :: k <= j <= |s| ==> !OccursAt(s, m, j)
    decreases |s| - k
  {
    if OccursAt(s, m, k) then Some(k)
    else if k == |s| then None
    else IndexOfFrom(s, m, k + 1)
  }

  /** The leftmost occurrence of `m` in `s`, as found by a regex search. */
  function IndexOf(s: string, m: string): (r: Option<nat>)
    ensures r.Some? ==> OccursAt(s, m, r.value)
    ensures r.Some? ==> forall j :: 0 <= j < r.value ==> !OccursAt(s, m, j)
    ensures r.None? <==> forall j :: 0 <= j <= |s| ==> !OccursAt(s, m, j)
  {
    IndexOfFrom(s, m, 0)
  }

  /** `m` does not occur anywhere in `s`. */
  predicate Free(s: string, m: string)
  {
    IndexOf(s, m).None?
  }

  /** The inverse of `Split`: the parts glued back together with `m`. */
  function Join(parts: seq<string>, m: string): string
  {
    if parts == [] then []
    else if |parts| == 1 then parts[0]
    else parts[0] + m + Join(parts[1..], m)
  }

  /** `re.split` by a pattern that is a literal `m` without groups: the
      pieces between the non-overlapping leftmost occurrences of `m`,
      including the (possibly empty) pieces before the first and after the
      last one. */
  function Split(s: string, m: string): (parts: seq<string>)
    requires |m| > 0
    ensures |parts| > 0
    ensures Join(parts, m) == s
    ensures forall k :: 0 <= k < |parts| ==> Free(parts[k], m)
    decreases |s|
  {
    match IndexOf(s, m)
    case None => [s]
    case Some(i) =>
      var head := s[..i];
      var rest := Split(s[i + |m|..], m);
      assert Free(head, m) by {
        forall j | 0 <= j <= |head|
          ensures !OccursAt(head, m, j)
        {
          if OccursAt(head, m, j) {
            assert s[j..j + |m|] == head[j..j + |m|];
            assert OccursAt(s, m, j);
          }
        }
      }
      assert s == head + m + s[i + |m|..];
      [head] + rest
  }

  /** Every cut is at the leftmost occurrence of the marker: in the text
      from piece `k` on, the marker first occurs right after piece `k`. */
  lemma {:induction false} SplitCutsLeftmost(s: string, m: string, k: nat)
    requires |m| > 0
    requires k < |Split(s, m)| - 1
    ensures IndexOf(Join(Split(s, m)[k..], m), m) == Some(|Split(s, m)[k]|)
    decreases k
  {
    var parts := Split(s, m);
    var i := IndexOf(s, m).value;
    var rest := Split(s[i + |m|..], m);
    assert parts == [s[..i]] + rest;
    if k == 0 {
      assert parts[k..] == parts;
    } else {
      SplitCutsLeftmost(s[i + |m|..], m, k - 1);
      assert parts[k..] == rest[k - 1..];
    }
  }
}
